=== FILE: README.md ===
# go-uploader transaction core, modelled in Dafny

This project models the transaction ingestion and query engine of
go-uploader. That engine has two parts:

- the in-memory transaction repository: `SaveAll` with its record validator, `GetAll`, `GetAllByUserID`, `GetAllIssues` with its exchange sort and paging, and `Clear`;
- the transaction service: `ParseAndStoreCSV`, `CalculateBalance` and `GetIssues`.

The store is an immutable value (`TransactionStore.Store`). Every
operation that changes it returns the new store together with what the Go
code returns (`Saved`, `Ingested`). Go's error values are datatypes
(`ValidationError`, `SaveError`, `SortError`, `IngestError`).

Several parts of Go are written out explicitly:

- the `strconv` conversions: `ParseInt64` clamps out-of-range values and returns 0 on a syntax error; `FormatInt` prints decimals;
- `strings.TrimSpace` with Go's white-space table;
- ASCII case mapping;
- byte-wise string order;
- int64 wrap-around (`Wrap64`) in the balance sums, in the page offset, and in the int64 that `time.Unix` keeps for a timestamp (the second shifted to year 1), which is what the issue sort compares (`IssueSort.TimeKey`).

Modules, in dependency order:

- `Wrappers`: `Option`, `Result` and `Outcome`.
- `Text`: trimming, case mapping and case-insensitive comparison, string order.
- `Numeric`: int64 range and wrap-around, `ParseInt64`, `FormatInt`.
- `Seqs`: order-preserving filtering.
- `Domain`: the transaction record and the type and status names.
- `Validation`: `validateRecord`.
- `TransactionStore`: `SaveAll`, `GetAll`, `GetAllByUserID`, `Clear`.
- `IssueSort`: `sortTransactions`.
- `Paging`: the paging step of `GetAllIssues`.
- `IssueQuery`: `GetAllIssues`.
- `IssueListing`: the service's `GetIssues`.
- `CsvIngest`: `ParseAndStoreCSV`.
- `Balance`: `CalculateBalance`.

Some consequences of the code that a reader might not expect:

- **The issue sort is not stable.** The code's exchange sort can reverse two transactions with equal keys, as `IssueSort.ExchangeSortIsNotStable` exhibits.
- **The total depends on the page.** A page past the last issue reports total 0, not the issue count (`Paging.Paginate`).
- **Very late timestamps sort first.** A second above 9223372036854775807 − 62135596800 wraps its comparison key negative, so ascending order puts it before every ordinary second (`IssueSort.LatestSecondSortsFirst`). The validator accepts such a second.
- **The service interface disagrees with its implementation.** The interface (domain/transaction.go:44-48) gives `ParseAndStoreCSV`, `CalculateBalance` and `GetIssues` a user id. The implementation (service.go) takes none, never fills `UserID`, and calls `GetAllIssues` without one.
  - The model passes a `userID` parameter to `ParseAndStoreCSV` and `GetIssues` and stores it on every uploaded transaction. For `ParseAndStoreCSV`, passing `""` gives the code as written, since that code never sets the user id. For `GetIssues`, passing `""` lists the issues of uploads, which all carry the empty id. The implementation's call at internal/modules/transaction/service.go:94 passes two arguments to the three-parameter `GetAllIssues` of domain/transaction.go:40, so it has no as-written behaviour to match.
  - `CalculateBalance` sums the whole store, as the implementation does.

## Model

| member | source | states |
|---|---|---|
| Text.TrimSpace | internal/repositories/transaction.go:175-192 | The trimmed text is one contiguous piece of the field with only white space before and after it. It is empty exactly when the field is all white space. Otherwise it starts and ends with a non-space character. A field with non-space ends is returned unchanged. |
| Text.TrimSpaceIdempotent | internal/modules/transaction/service.go:44-48 | Trimming a field the upload already trimmed changes nothing, so the validator sees the stored text. |
| Text.ToUpperMatches | internal/repositories/transaction.go:195-202 | Upper-casing a field and comparing it with an upper-case keyword is the same as comparing the field with the keyword ignoring case. |
| Text.UpperOfTrimmed | internal/modules/transaction/service.go:45-47 | Upper-casing a trimmed field leaves it trimmed. |
| Text.StrLessIrreflexive | internal/repositories/transaction.go:133-156 | Go's `<` on strings never holds between a string and itself. |
| Text.StrLessTransitive | internal/repositories/transaction.go:133-156 | Go's `<` on strings is transitive. |
| Text.StrLessTotal | internal/repositories/transaction.go:133-156 | Of two different strings, one is below the other. |
| Text.StrLessAsymmetric | internal/repositories/transaction.go:133-156 | Two strings are never each below the other. |
| Numeric.Wrap64 | internal/modules/transaction/service.go:70-84 | int64 arithmetic gives the exact value modulo 2^64, and gives the exact value itself when that fits in int64. |
| Numeric.Wrap64Add | internal/modules/transaction/service.go:76-80 | Adding in int64 to an already wrapped sum gives the wrapped exact sum. |
| Numeric.ScanDigitsMeaning | internal/repositories/transaction.go:205-213 | The unsigned digit scan succeeds exactly on digit strings whose value fits in 64 bits, and then yields that value. |
| Numeric.ParseInt64Success | internal/repositories/transaction.go:205-213 | `strconv.ParseInt(s, 10, 64)` succeeds exactly on a signed decimal literal within the int64 range, and then yields the literal's value. |
| Numeric.ParseInt64Failure | internal/modules/transaction/service.go:39-40 | On an out-of-range literal the value returned with the error is the int64 bound on that side. On any other error it is 0 or a bound. |
| Numeric.NotANumberIsZero | internal/modules/transaction/service.go:39-40 | A text with no digit after its optional sign parses to 0 with an error. |
| Numeric.ParseFormatRoundTrip | internal/repositories/transaction.go:28-38 | Parsing the decimal text that `FormatInt` prints for an int64 gives back that int64 without error. |
| Numeric.FormatIntIsTrimmed | internal/repositories/transaction.go:28-38 | The printed number is never blank and has no white space to trim. |
| Seqs.FilterContents | internal/repositories/transaction.go:53-72 | A filter keeps every kept element exactly as often as the input holds it, and nothing else. |
| Seqs.FilterConcat | internal/repositories/transaction.go:53-62 | Filtering two runs one after the other gives the two filtered runs one after the other. |
| Seqs.KeptPositions | internal/repositories/transaction.go:53-62 | The positions a filter keeps are increasing, each holds a kept element, and every kept position is listed. |
| Seqs.SelectionFollowsPositions | internal/repositories/transaction.go:53-62 | A filter lists the elements at the kept positions of its input, in that order. |
| Seqs.FilterAll | internal/repositories/transaction.go:53-62 | A filter that keeps every element returns its input. |
| Domain.ParseType | domain/transaction.go:11-16 | A text names a type exactly when it is that type's constant, "DEBIT" or "CREDIT". |
| Domain.ParseStatus | domain/transaction.go:18-24 | A text names a status exactly when it is "SUCCESS", "FAILED" or "PENDING". |
| Validation.ValidateRecord | internal/repositories/transaction.go:170-216 | A record passes exactly when it satisfies all the rules: six fields, none blank, the type and status named in any case, a positive int64 timestamp and a non-negative int64 amount. A failure names the first rule broken, in the code's order. |
| Validation.FirstBlank | internal/repositories/transaction.go:175-192 | Finds the first blank field, or finds none exactly when no field is blank. |
| Validation.NoneBlankOfSix | internal/repositories/transaction.go:175-192 | On a six-field record, "no field is blank" means the six field checks in turn. |
| Validation.TypeCheckIsCaseInsensitive | internal/repositories/transaction.go:194-198 | The upper-cased field is a type constant exactly when the field names a type in any case. |
| Validation.StatusCheckIsCaseInsensitive | internal/repositories/transaction.go:200-203 | The upper-cased field is a status constant exactly when the field names a status in any case. |
| Validation.TypeRuleAsChecked | internal/repositories/transaction.go:194-198 | The type rule holds exactly when the code's upper-case comparison accepts the trimmed field. |
| Validation.StatusRuleAsChecked | internal/repositories/transaction.go:200-203 | The status rule holds exactly when the code's upper-case comparison accepts the trimmed field. |
| Validation.CheckValues | internal/repositories/transaction.go:194-215 | The value checks pass exactly when the type, status, timestamp and amount rules hold. A failure names the first value rule broken. |
| TransactionStore.ValidatesIff | internal/repositories/transaction.go:28-41 | The validator passes a transaction's rebuilt record exactly when the transaction's own fields satisfy the rules: rebuilding loses nothing the rules look at. |
| TransactionStore.RecordNoneBlank | internal/repositories/transaction.go:29-36 | The rebuilt record has no blank field exactly when the name, type, status and description are not blank. |
| TransactionStore.RecordTimestamp | internal/repositories/transaction.go:29-36 | The rebuilt timestamp field passes its rule exactly when the timestamp is positive. |
| TransactionStore.RecordAmount | internal/repositories/transaction.go:29-36 | The rebuilt amount field passes its rule exactly when the amount is not negative. |
| TransactionStore.FirstRejected | internal/repositories/transaction.go:28-41 | The validation loop finds nothing exactly when every record from the start position on is acceptable. Otherwise it reports the first unacceptable record, with the validator's own error for it. |
| TransactionStore.SaveAll | internal/repositories/transaction.go:24-45 | The batch is stored exactly when every record is acceptable, and is then appended in order. Otherwise the store is unchanged and the error gives the index of the first bad record and the validator's error for it. |
| TransactionStore.GetAllAfterSaveAll | internal/repositories/transaction.go:47-51 | GetAll lists every stored transaction in insertion order: after SaveAll, the earlier ones followed by the batch when every record is acceptable, and the earlier ones alone otherwise. |
| TransactionStore.GetAllByUserID | internal/repositories/transaction.go:53-62 | Returns only the user's transactions, each as often as the store holds it, in store order: the k-th result is the transaction at the k-th stored position that belongs to the user. |
| TransactionStore.Clear | internal/repositories/transaction.go:109-113 | The cleared store holds no transaction. |
| TransactionStore.SaveAllKeepsConsistent | internal/repositories/transaction.go:24-45 | A store holding only acceptable transactions still does so after any `SaveAll`, whether it passed or failed. |
| TransactionStore.SaveAllThenByUser | internal/repositories/transaction.go:43-62 | After a stored batch, a user's view is the old view followed by the user's records of the batch, in batch order. |
| TransactionStore.SaveAllOwnBatch | internal/repositories/transaction.go:43-62 | A stored batch owned by one user extends that user's view by exactly the batch, and leaves every other user's view unchanged. |
| TransactionStore.ClearEmptiesEveryView | internal/repositories/transaction.go:109-113 | After `Clear` every user's view is empty and the store is trivially consistent. |
| IssueSort.ParseSortField | internal/repositories/transaction.go:126-158 | The field chosen is the one whose name matches `sortBy` ignoring case. No field is chosen exactly when none matches. |
| IssueSort.IsAscending | internal/repositories/transaction.go:120 | The order is ascending unless the direction is "DESC" in some case. |
| IssueSort.BeforeIsStrict | internal/repositories/transaction.go:127-156 | The swap condition, read as "belongs before", is irreflexive, asymmetric and transitive, for every field and direction. |
| IssueSort.NotBeforeIsInOrder | internal/repositories/transaction.go:127-156 | Two transactions are left unswapped exactly when they are in the requested order. |
| IssueSort.Swap | internal/repositories/transaction.go:161-163 | The swap exchanges the two positions, keeps every other position, and keeps the same transactions. |
| IssueSort.InnerPass | internal/repositories/transaction.go:123-164 | The inner loop keeps the same transactions and does not touch positions before `i`. |
| IssueSort.InnerPassPlacesFirst | internal/repositories/transaction.go:123-164 | After the inner loop for `i`, no later transaction belongs before the one at `i`. |
| IssueSort.OuterPassPlaces | internal/repositories/transaction.go:122-165 | After the outer loop, every position holds a transaction that no later one belongs before. |
| IssueSort.ExchangeSortCorrect | internal/repositories/transaction.go:115-168 | The exchange sort returns a permutation of its input that is sorted by the field in the requested direction. |
| IssueSort.SortTransactions | internal/repositories/transaction.go:115-168 | Fails, naming `sortBy`, exactly when there are at least two transactions and no field name matches. Fewer than two transactions are returned as given. Otherwise the result is a permutation of the input, sorted by the matching field. |
| IssueSort.FieldNamesDistinct | internal/repositories/transaction.go:126-157 | At most one field name matches any `sortBy`, so the switch's choice is unambiguous. |
| IssueSort.TimeKey | internal/repositories/transaction.go:127-132 | The key a timestamp is compared by is the second shifted to year 1, less 2^64 once that passes the int64 range. |
| IssueSort.TimeKeyOrder | internal/repositories/transaction.go:127-132 | Two seconds on the same side of the wrap point compare as numbers. A second past it compares below every second before it. |
| IssueSort.LatestSecondSortsFirst | internal/repositories/transaction.go:127-132 | Sorting second 1 and second 9223372036854775807 by timestamp, ascending, puts the later second first. |
| IssueSort.ExchangeSortIsNotStable | internal/repositories/transaction.go:139-144 | Shows three transactions for which the sort reverses two with equal amounts: the sort is not stable. |
| Paging.EffectivePage | internal/repositories/transaction.go:87-89 | A page below 1 is read as page 1, and any other page as itself. |
| Paging.EffectiveLimit | internal/repositories/transaction.go:91-93 | A limit below 1 is read as the default 10, and any other limit as itself. |
| Paging.Paginate | internal/repositories/transaction.go:95-106 | The page holds at most `limit` items, namely the items from the offset on, in order. It is empty exactly when the offset is at or past the end. Its total is the full count, or 0 past the end. |
| Paging.PagesCover | internal/repositories/transaction.go:95-106 | Pages 1 to k at a fixed limit, read in order, are exactly the first k·limit items: no item is skipped or repeated between pages. |
| Paging.EnoughPagesListEverything | internal/repositories/transaction.go:95-106 | Enough pages list every item exactly once, in order. |
| Paging.PaginateAsWritten | internal/repositories/transaction.go:96-106 | The paging step with int64 `start` and `end`. It never returns more items than exist. |
| Paging.AsWrittenAgreesWithoutOverflow | internal/repositories/transaction.go:96-106 | While the page's end fits in int64, the code as written returns the intended page. |
| Paging.HugePageWrapsToFirstPage | internal/repositories/transaction.go:96-106 | Page 2^61+1 at limit 8 should be empty, but the int64 offset wraps to 0 and the code returns page 1. |
| Paging.HugePagePanics | internal/repositories/transaction.go:96-106 | Page 2^62+1 at limit 2 should be empty, but the offset wraps to -2^63 and the slice bounds are invalid, so the code panics. |
| IssueQuery.UserIssues | internal/repositories/transaction.go:65-72 | The issues are the user's FAILED or PENDING transactions. |
| IssueQuery.UserIssuesContents | internal/repositories/transaction.go:65-72 | The issues hold each stored FAILED or PENDING transaction of the user as often as the store does, and nothing else. |
| IssueQuery.DefaultsAgree | internal/repositories/transaction.go:74-80 | The default direction "ASC" sorts the same as giving no direction. The default field is timestamp. An empty `sortBy` matches no field. |
| IssueQuery.GetAllIssues | internal/repositories/transaction.go:64-107 | Fails, naming the field, exactly when there are two or more issues and a non-empty `sortBy` matches no field. Otherwise it returns the window of the sorted issues starting at (page − 1)·limit, holding min(limit, issues left) of them: sorted as requested, each at most as often as stored. The page is empty exactly past the last issue, and the total is the issue count, or 0 on an empty page. |
| IssueQuery.SortedPage | internal/repositories/transaction.go:95-106 | The page cut from a sorted permutation of the issues is the window at the offset, of size min(limit, issues left), sorted, owned by the user, and a sub-multiset of the issues. |
| IssueQuery.WindowIsSorted | internal/repositories/transaction.go:106 | Any page cut from the sorted issues is itself sorted. |
| IssueQuery.PagesListEveryIssueOnce | internal/modules/transaction/service_test.go:187-227 | At a fixed limit, the first k pages together list every issue of the user exactly once, in the requested order, when k·limit covers them. |
| IssueQuery.ClearedStoreHasNoIssues | internal/repositories/transaction.go:109-113 | After `Clear` every query returns an empty page with total 0. |
| IssueListing.View | internal/modules/transaction/service.go:99-109 | A response row carries every field of its transaction but the owner, unchanged: with the owner it gives the transaction back. |
| IssueListing.Rows | internal/modules/transaction/service.go:99-109 | One row per issue, in the same order. Each row shows a FAILED or PENDING status and gives back its issue. |
| IssueListing.GetIssues | internal/modules/transaction/service.go:93-115 | Passes the repository's error through unchanged. Otherwise it returns one row per listed issue, in the page's order, with the repository's total. There are at most `limit` rows, and each shows a FAILED or PENDING status. |
| IssueListing.RowsAreUserIssues | internal/modules/transaction/service.go:93-115 | The rows, with their owner restored, are some of the user's stored issues, none more often than stored. |
| CsvIngest.Coerce | internal/modules/transaction/service.go:39-49 | A row becomes a transaction owned by the uploading user. Its timestamp and amount are the trimmed fields parsed with errors ignored, its name and description are trimmed, and its type and status are trimmed and upper-cased. |
| CsvIngest.CoerceAll | internal/modules/transaction/service.go:29-52 | One transaction per row, in order: the k-th transaction is the k-th row coerced, owned by the uploading user. |
| CsvIngest.CoerceIsCanonical | internal/modules/transaction/service.go:42-49 | Coerced text fields are trimmed, and the type and status are upper case. |
| CsvIngest.CoerceRebuiltRecord | internal/modules/transaction/service.go:39-49 | A trimmed, upper-cased transaction rebuilt into a record and coerced again is unchanged. |
| CsvIngest.UpperKeepsType | internal/modules/transaction/service.go:45 | A type named in any case is a type constant once upper-cased. |
| CsvIngest.UpperKeepsStatus | internal/modules/transaction/service.go:47 | A status named in any case is a status constant once upper-cased. |
| CsvIngest.UpperNamesOnlyTypes | internal/modules/transaction/service.go:45 | Upper-casing never turns a text that names no type into a type name. |
| CsvIngest.UpperNamesOnlyStatuses | internal/modules/transaction/service.go:47 | Upper-casing never turns a text that names no status into a status name. |
| CsvIngest.WellFormedCoercesToAcceptable | internal/modules/transaction/service.go:39-49 | A row the validator accepts coerces to a transaction the store accepts. |
| CsvIngest.FirstShort | internal/modules/transaction/service.go:39-48 | Finds the first row with fewer than six fields (where Go's indexing panics), or finds none exactly when every row is wide enough. |
| CsvIngest.ParseAndStoreCSV | internal/modules/transaction/service.go:23-66 | The upload succeeds exactly when there is at least one row, every row has six fields, and every coerced row is acceptable. It then appends the coerced rows in order and reports the row count with "success". On any failure the store is unchanged. An empty input is exactly the "no transactions" error. A refusal by the store carries SaveAll's error for the coerced rows: the first refused row and its cause. |
| CsvIngest.WellFormedUploadIsStored | internal/modules/transaction/service_test.go:18-38 | A non-empty upload of rows the validator accepts always succeeds. |
| CsvIngest.UploadIsSaveAll | internal/modules/transaction/service.go:58-60 | A successful upload stores exactly what `SaveAll` stores for the coerced rows. |
| CsvIngest.UploadGrowsOnlyOwnView | internal/modules/transaction/service.go:58-60 | After a successful upload the uploader's view ends with the coerced rows, in order, and every other user's view is unchanged. |
| CsvIngest.UnknownNameRejectsUpload | internal/modules/transaction/service_test.go:58-73 | One row whose type or status names nothing, in any case, makes the whole upload fail and leaves the store unchanged. |
| CsvIngest.AmountTypoRowIsRefused | internal/repositories/transaction.go:210-213 | The validator refuses a row whose amount is "abc" with "invalid amount". |
| CsvIngest.AmountTypoRowCoercesToZero | internal/modules/transaction/service.go:40 | The upload coerces that row's amount to 0, which the store accepts. |
| CsvIngest.OneRowUpload | internal/modules/transaction/service.go:54-65 | A one-row upload of an acceptable row stores exactly that row. |
| CsvIngest.UnreadableAmountStoredAsZero | internal/modules/transaction/service.go:39-40 | The row the validator refuses for its amount "abc" is uploaded successfully and stored with amount 0. |
| CsvIngest.FirstMalformed | internal/repositories/transaction.go:170-216 | Finds the first row whose six fields the validator refuses, with the validator's error, or finds none exactly when all pass. |
| CsvIngest.ParseAndStoreCSVChecked | internal/modules/transaction/service.go:23-66 | The corrected upload succeeds exactly when there is a row, every row is six fields wide, and every row passes the validator as written. A refusal reports the first bad row and the validator's error. |
| CsvIngest.CheckedRowsAreAcceptable | internal/modules/transaction/service.go:39-49 | Rows the corrected upload admits coerce to transactions the store accepts. |
| CsvIngest.WellFormedRowKeepsNumbers | internal/modules/transaction/service.go:39-40 | For a row the validator accepts, the stored timestamp and amount are the values of the literals written in the row. |
| CsvIngest.CheckedUploadKeepsNumbers | internal/modules/transaction/service.go:39-40 | Every transaction stored by the corrected upload carries the timestamp and amount literally written in its row. |
| Balance.CalculateBalance | internal/modules/transaction/service.go:68-91 | Credits and debits are the exact sums of the SUCCESS amounts of each type, reduced to int64 as Go's wrapping `+=` leaves them. The balance is the exact difference, reduced the same way. |
| Balance.AccumulateStep | internal/modules/transaction/service.go:76-80 | Adding one transaction in int64 to the wrapped sum so far gives the wrapped sum of the longer prefix. |
| Balance.WrappedDifference | internal/modules/transaction/service.go:84 | Subtracting the wrapped sums in int64 gives the wrapped exact difference. |
| Balance.SumOfConcat | internal/modules/transaction/service.go:74-82 | The sum over two runs of transactions is the sum of their sums. |
| Balance.UnsettledSumToZero | internal/modules/transaction/service.go:75 | Transactions that are not SUCCESS add nothing to either sum. |
| Balance.AcceptableSumNonNegative | internal/repositories/transaction.go:210-213 | Because the store admits no negative amount, the exact sums are never negative. |
| Balance.NoOverflowIsExact | internal/modules/transaction/service.go:70-84 | For a consistent store whose sums fit in int64, the credits, debits and balance reported are exact. |
| Balance.UploadAddsItsSums | internal/modules/transaction/service.go:74-82 | A successful upload, as written or corrected, adds exactly its own SUCCESS amounts to each sum. A refused upload adds nothing. |
| Balance.UnsettledUploadChangesNothing | internal/modules/transaction/service.go:74-82 | Uploading only rows whose status is not SUCCESS leaves both sums unchanged. |
| Balance.UploadedRowCountsByName | internal/modules/transaction/service.go:74-82 | An uploaded row counts toward a sum exactly when its fields name SUCCESS and that type in any case. The exact comparison in the balance and the case-insensitive one in the validator agree on uploaded rows. |
| Balance.MixedRowsBalance | internal/modules/transaction/service_test.go:85-115 | The four example rows give credits 700000, debits 150000 and balance 550000. |
| Balance.OnlySettledRowsCount | internal/modules/transaction/service_test.go:117-146 | With FAILED and PENDING debits only the SUCCESS credit counts: credits 1000000, debits 0, balance 1000000. |
| Balance.ClearedStoreBalancesToZero | internal/repositories/transaction.go:109-113 | A cleared store sums to zero. |

## Left out

- CSV tokenisation is not modelled. The reader's quoting, `TrimLeadingSpace` and its "wrong number of fields" error are left out. Rows arrive already split into fields, and `TrimSpace` covers the leading-space trimming.
- Line numbers are not modelled. The upload reports a short row (where Go's `record[i]` panics) as `ShortRecord`, by index. Only the first six fields of a wider row are used, as in the code.
- Only ASCII case mapping is modelled. `strings.ToUpper`/`ToLower` are modelled on ASCII letters only, because Unicode case tables are outside the model. Go also maps four non-ASCII letters onto ASCII ones: ToUpper turns ı into I and ſ into S, and ToLower turns İ into i and the Kelvin sign into k. So Go stores the rows "debıt" and "faıled" as DEBIT and FAILED, sorts descending for "deſc", and sorts by timestamp for "tİmestamp". The model refuses the two rows, sorts "deſc" ascending, and reports "tİmestamp" as an unknown field.
- CsvIngest.UpperNamesOnlyTypes: it holds for ASCII case mapping only. Under Go's ToUpper, "debıt" names no type yet upper-cases to DEBIT.
- CsvIngest.UpperNamesOnlyStatuses: it holds for ASCII case mapping only. Under Go's ToUpper, "faıled" names no status yet upper-cases to FAILED.
- Times are kept as Unix seconds. A `time.Time` built by `time.Unix(sec, 0)` is represented by `sec`; its comparisons are modelled through the int64 key `IssueSort.TimeKey`, and `Unix()` gives `sec` back. The RFC 3339 rendering in `GetIssues` is not modelled, and the response row keeps the Unix second.
- The repository's `sync.RWMutex` is not modelled. Every operation is one atomic step on an immutable store value, so concurrency is left out.
- Slice aliasing is not modelled: `GetAll` returns the live slice, and `GetAllIssues` sorts a freshly appended slice in place. Values have no aliasing.
- HTTP handlers, authentication, sessions and configuration are not part of this model.
- Balance.CalculateBalance: it sums the whole store, as the service code does, not only the caller's transactions as the service interface suggests.
- IssueQuery.GetAllIssues: it computes the offset without overflow, using `Paging.Paginate`. For page·limit at or above 2^63, Go wraps the offset and serves page 1 or panics, as `Paging.PaginateAsWritten` models; this member returns an empty page instead.
- IssueQuery.PagesListEveryIssueOnce: it is stated over the windows of the sorted issues (`FirstPages`), each of which `GetAllIssuesIsWindow` equates with one query. It is not stated over a sequence of separate query calls.
- Balance.MixedRowsBalance: it starts from the stored transactions of the example, not from its CSV text. Parsing that text is covered by the general `ParseAndStoreCSV` contract.
- Balance.OnlySettledRowsCount: it starts from the stored transactions of the example, not from its CSV text, for the same reason.

## Findings

| source | as written | input that shows it | evidently intended | confidence | as-written member | corrected member |
|---|---|---|---|---|---|---|
| internal/repositories/transaction.go:96-106 | `start := (page-1)*limit` and `end := start+limit` are int64 and wrap around for huge pages | page 2^61+1, limit 8, any non-empty issue list: `start` wraps to 0 and page 1 is returned; page 2^62+1, limit 2: `start` wraps to -2^63 and `issues[start:end]` panics | a page past the end is empty with total 0 | not executed | Paging.HugePageWrapsToFirstPage, Paging.HugePagePanics (on Paging.PaginateAsWritten) | Paging.Paginate, with Paging.PagesCover |
| internal/modules/transaction/service.go:39-40 | the parse errors of timestamp and amount are discarded, and the store validates only the re-printed number | the row `<timestamp>, JOHN DOE, DEBIT, abc, SUCCESS, restaurant`: the validator refuses it with "invalid amount", but the upload stores it with amount 0 (an out-of-range amount is stored as the int64 bound) | an upload refuses every row the validator refuses | not executed | CsvIngest.UnreadableAmountStoredAsZero (on CsvIngest.ParseAndStoreCSV) | CsvIngest.ParseAndStoreCSVChecked, with CsvIngest.CheckedUploadKeepsNumbers |

=== FILE: balance.dfy ===
/**
 * CalculateBalance: the sum of the settled credits, the sum of the settled
 * debits and their difference, over every stored transaction, in int64.
 */
module Balance {
  import opened Text
  import opened Numeric
  import opened Domain
  import opened TransactionStore
  import opened CsvIngest

  /** BalanceResponseDTO. */
  datatype BalanceResponse = BalanceResponse(credits: Int64, debits: Int64, balance: Int64)

  /** What one transaction adds to the sum of type `ty`: its amount when its
      status is exactly SUCCESS and its type exactly the name of `ty`. */
  function Contribution(tx: Transaction, ty: TxType): int {
    if tx.status == Success.Name() && tx.txType == ty.Name() then tx.amount else 0
  }

  /** The exact (unbounded) sum of the settled amounts of type `ty`. */
  function SumOf(txs: seq<Transaction>, ty: TxType): int {
    if txs == [] then 0 else SumOf(txs[..|txs| - 1], ty) + Contribution(txs[|txs| - 1], ty)
  }

  /** The exact settled credits minus the exact settled debits. */
  function Net(txs: seq<Transaction>): int {
    SumOf(txs, Credit) - SumOf(txs, Debit)
  }

  /** Folding (a - b) and subtracting in int64 agree with subtracting exactly and wrapping once. */
  lemma Wrap64Sub(a: int, b: int)
    ensures Wrap64(Wrap64(a) - Wrap64(b)) == Wrap64(a - b)
  {
    Wrap64Add(a, -(Wrap64(b) as int));
    var k := (b - Wrap64(b)) / TwoTo64;
    assert b - Wrap64(b) == k * TwoTo64;
    Wrap64Shift(a - b, -k);
  }

  /**
   * CalculateBalance: each sum is the exact sum of the settled amounts of
   * its type, reduced to int64 as Go's wrapping `+=` leaves it, and the
   * balance is the exact difference reduced the same way.
   */
  method CalculateBalance(st: Store) returns (r: BalanceResponse)
    ensures r.credits == Wrap64(SumOf(GetAll(st), Credit))
    ensures r.debits == Wrap64(SumOf(GetAll(st), Debit))
    ensures r.balance == Wrap64(Net(GetAll(st)))
  {
    var txs := GetAll(st);
    var credits: Int64 := 0;
    var debits: Int64 := 0;
    var i := 0;
    while i < |txs|
      invariant 0 <= i <= |txs|
      invariant credits == Wrap64(SumOf(txs[..i], Credit))
      invariant debits == Wrap64(SumOf(txs[..i], Debit))
    {
      var tx := txs[i];
      AccumulateStep(txs, i, credits, Credit);
      AccumulateStep(txs, i, debits, Debit);
      if tx.status == Success.Name() {
        if tx.txType == Credit.Name() {
          credits := Wrap64(credits + tx.amount);
        } else if tx.txType == Debit.Name() {
          debits := Wrap64(debits + tx.amount);
        }
      }
      i := i + 1;
    }
    assert txs[..|txs|] == txs;
    WrappedDifference(txs, credits, debits);
    r := BalanceResponse(credits, debits, Wrap64(credits - debits));
  }

  /* ---------------- properties of the sums ---------------- */

  /** The difference of the wrapped sums, wrapped again, is the exact difference wrapped once. */
  lemma WrappedDifference(txs: seq<Transaction>, credits: Int64, debits: Int64)
    requires credits == Wrap64(SumOf(txs, Credit)) && debits == Wrap64(SumOf(txs, Debit))
    ensures Wrap64(credits - debits) == Wrap64(Net(txs))
  {
    Wrap64Sub(SumOf(txs, Credit), SumOf(txs, Debit));
  }

  /** Extending a prefix by one transaction adds that transaction's contribution. */
  lemma SumOfStep(txs: seq<Transaction>, i: nat, ty: TxType)
    requires i < |txs|
    ensures SumOf(txs[..i + 1], ty) == SumOf(txs[..i], ty) + Contribution(txs[i], ty)
  {
    assert txs[..i + 1][..i] == txs[..i];
  }

  /** One more transaction, added in int64 to the wrapped sum so far, gives
      the wrapped sum of the longer prefix. */
  lemma AccumulateStep(txs: seq<Transaction>, i: nat, acc: Int64, ty: TxType)
    requires i < |txs| && acc == Wrap64(SumOf(txs[..i], ty))
    ensures Wrap64(acc + Contribution(txs[i], ty)) == Wrap64(SumOf(txs[..i + 1], ty))
    ensures Contribution(txs[i], ty) == 0 ==> Wrap64(SumOf(txs[..i + 1], ty)) == acc
  {
    SumOfStep(txs, i, ty);
    Wrap64Add(SumOf(txs[..i], ty), Contribution(txs[i], ty));
  }

  /** The sum over two runs of transactions is the sum of their sums. */
  lemma {:induction false} SumOfConcat(a: seq<Transaction>, b: seq<Transaction>, ty: TxType)
    ensures SumOf(a + b, ty) == SumOf(a, ty) + SumOf(b, ty)
  {
    if b != [] {
      var ab := a + b;
      assert ab[..|ab| - 1] == a + b[..|b| - 1];
      SumOfConcat(a, b[..|b| - 1], ty);
    } else {
      assert a + b == a;
    }
  }

  /** Transactions that are not settled add nothing to either sum. */
  lemma {:induction false} UnsettledSumToZero(txs: seq<Transaction>, ty: TxType)
    requires forall k :: 0 <= k < |txs| ==> txs[k].status != Success.Name()
    ensures SumOf(txs, ty) == 0
  {
    if txs != [] {
      UnsettledSumToZero(txs[..|txs| - 1], ty);
    }
  }

  /** Acceptable transactions carry non-negative amounts, so their sums are never negative. */
  lemma {:induction false} AcceptableSumNonNegative(txs: seq<Transaction>, ty: TxType)
    requires AllAcceptable(txs)
    ensures SumOf(txs, ty) >= 0
  {
    if txs != [] {
      var init := txs[..|txs| - 1];
      forall k | 0 <= k < |init| ensures Acceptable(init[k]) {
        assert init[k] == txs[k];
      }
      assert Acceptable(txs[|txs| - 1]);
      AcceptableSumNonNegative(init, ty);
    }
  }

  /** While neither sum leaves int64, a consistent store reports the exact sums and difference. */
  lemma NoOverflowIsExact(st: Store)
    requires Consistent(st)
    requires SumOf(GetAll(st), Credit) <= MaxInt64 && SumOf(GetAll(st), Debit) <= MaxInt64
    ensures Wrap64(SumOf(GetAll(st), Credit)) == SumOf(GetAll(st), Credit)
    ensures Wrap64(SumOf(GetAll(st), Debit)) == SumOf(GetAll(st), Debit)
    ensures Wrap64(Net(GetAll(st))) == Net(GetAll(st))
  {
    AcceptableSumNonNegative(GetAll(st), Credit);
    AcceptableSumNonNegative(GetAll(st), Debit);
    FitsUnchanged(Net(GetAll(st)));
  }

  lemma FitsUnchanged(x: int)
    requires MinInt64 <= x <= MaxInt64
    ensures Wrap64(x) == x
  {
  }

  /** An upload, as written or corrected, adds exactly its own settled amounts to each sum; a refused one adds nothing. */
  lemma UploadAddsItsSums(st: Store, records: seq<seq<string>>, userID: string, ty: TxType)
    ensures var up := ParseAndStoreCSV(st, records, userID);
      up.outcome.Ok? ==> SumOf(GetAll(up.store), ty) == SumOf(GetAll(st), ty) + SumOf(CoerceAll(records, userID), ty)
    ensures var up := ParseAndStoreCSV(st, records, userID);
      up.outcome.Err? ==> SumOf(GetAll(up.store), ty) == SumOf(GetAll(st), ty)
    ensures var up := ParseAndStoreCSVChecked(st, records, userID);
      up.outcome.Ok? ==> SumOf(GetAll(up.store), ty) == SumOf(GetAll(st), ty) + SumOf(CoerceAll(records, userID), ty)
    ensures var up := ParseAndStoreCSVChecked(st, records, userID);
      up.outcome.Err? ==> SumOf(GetAll(up.store), ty) == SumOf(GetAll(st), ty)
  {
    var up := ParseAndStoreCSV(st, records, userID);
    var checked := ParseAndStoreCSVChecked(st, records, userID);
    if up.outcome.Ok? || checked.outcome.Ok? {
      SumOfConcat(GetAll(st), CoerceAll(records, userID), ty);
    }
  }

  /** A row whose status does not name SUCCESS, in any case, is not settled once coerced. */
  lemma UnsettledRowsStayUnsettled(records: seq<seq<string>>, userID: string)
    requires AllWide(records)
    requires forall i :: 0 <= i < |records| ==> !EqualFold(TrimSpace(records[i][4]), Success.Name())
    ensures forall k :: 0 <= k < |records| ==> CoerceAll(records, userID)[k].status != Success.Name()
  {
    forall k | 0 <= k < |records| ensures CoerceAll(records, userID)[k].status != Success.Name() {
      ToUpperMatches(TrimSpace(records[k][4]), Success.Name());
    }
  }

  /** Uploading only unsettled rows leaves both sums, and so the balance, as they were. */
  lemma UnsettledUploadChangesNothing(st: Store, records: seq<seq<string>>, userID: string, ty: TxType)
    requires AllWide(records)
    requires forall i :: 0 <= i < |records| ==> !EqualFold(TrimSpace(records[i][4]), Success.Name())
    ensures SumOf(GetAll(ParseAndStoreCSV(st, records, userID).store), ty) == SumOf(GetAll(st), ty)
  {
    UnsettledRowsStayUnsettled(records, userID);
    UnsettledSumToZero(CoerceAll(records, userID), ty);
    UploadAddsItsSums(st, records, userID, ty);
  }

  /**
   * The validator compares names in any case but the balance compares them
   * exactly; the upload upper-cases type and status, so an uploaded row
   * counts exactly when its fields name SUCCESS and the type in any case.
   */
  lemma UploadedRowCountsByName(record: seq<string>, userID: string, ty: TxType)
    requires Wide(record)
    ensures Contribution(Coerce(record, userID), ty) ==
      if EqualFold(TrimSpace(record[4]), Success.Name()) && EqualFold(TrimSpace(record[2]), ty.Name())
      then Coerce(record, userID).amount else 0
  {
    ToUpperMatches(TrimSpace(record[4]), Success.Name());
    ToUpperMatches(TrimSpace(record[2]), ty.Name());
  }

  /* ---------------- the worked examples ---------------- */

  /** The four rows of the first balance example, as the upload stores them. */
  function MixedRows(userID: string): seq<Transaction> {
    [ Transaction(1624507883, "JOHN DOE", "CREDIT", 500000, "SUCCESS", "salary", userID),
      Transaction(1624608050, "E-COMMERCE A", "DEBIT", 150000, "SUCCESS", "clothes", userID),
      Transaction(1624708050, "SHOP B", "DEBIT", 100000, "FAILED", "test", userID),
      Transaction(1624808050, "STORE C", "CREDIT", 200000, "SUCCESS", "refund", userID) ]
  }

  /** The exact sums of the first example. */
  lemma MixedRowsSums(userID: string, ty: TxType)
    ensures SumOf(MixedRows(userID), ty) == if ty == Credit then 700000 else 150000
  {
    var rows := MixedRows(userID);
    SumOfStep(rows, 0, ty);
    SumOfStep(rows, 1, ty);
    SumOfStep(rows, 2, ty);
    SumOfStep(rows, 3, ty);
    assert rows[..0] == [] && rows[..4] == rows;
  }

  /** Two settled credits and one settled debit count; the failed debit does not. */
  lemma MixedRowsBalance(st: Store, userID: string)
    requires GetAll(st) == MixedRows(userID)
    ensures Wrap64(SumOf(GetAll(st), Credit)) == 700000
    ensures Wrap64(SumOf(GetAll(st), Debit)) == 150000
    ensures Wrap64(Net(GetAll(st))) == 550000
  {
    MixedRowsSums(userID, Credit);
    MixedRowsSums(userID, Debit);
    FitsUnchanged(700000);
    FitsUnchanged(150000);
    FitsUnchanged(550000);
  }

  /** The three rows of the second balance example, as the upload stores them. */
  function OneSettledRow(userID: string): seq<Transaction> {
    [ Transaction(1624507883, "JOHN DOE", "CREDIT", 1000000, "SUCCESS", "salary", userID),
      Transaction(1624608050, "E-COMMERCE A", "DEBIT", 200000, "FAILED", "clothes", userID),
      Transaction(1624708050, "SHOP B", "DEBIT", 300000, "PENDING", "test", userID) ]
  }

  /** The exact sums of the second example. */
  lemma OneSettledRowSums(userID: string, ty: TxType)
    ensures SumOf(OneSettledRow(userID), ty) == if ty == Credit then 1000000 else 0
  {
    var rows := OneSettledRow(userID);
    SumOfStep(rows, 0, ty);
    SumOfStep(rows, 1, ty);
    SumOfStep(rows, 2, ty);
    assert rows[..0] == [] && rows[..3] == rows;
  }

  /** Failed and pending debits are left out: the balance is the one settled credit. */
  lemma OnlySettledRowsCount(st: Store, userID: string)
    requires GetAll(st) == OneSettledRow(userID)
    ensures Wrap64(SumOf(GetAll(st), Credit)) == 1000000
    ensures Wrap64(SumOf(GetAll(st), Debit)) == 0
    ensures Wrap64(Net(GetAll(st))) == 1000000
  {
    OneSettledRowSums(userID, Credit);
    OneSettledRowSums(userID, Debit);
    FitsUnchanged(1000000);
    FitsUnchanged(0);
  }

  /** A cleared store reports zero for every figure. */
  lemma ClearedStoreBalancesToZero(st: Store, ty: TxType)
    ensures SumOf(GetAll(Clear(st)), ty) == 0
  {
    assert GetAll(Clear(st)) == [];
  }
}

=== FILE: domain.dfy ===
/** The transaction entity and its two enumerations. */
module Domain {
  import opened Wrappers
  import opened Numeric

  datatype TxType = Debit | Credit {
    function Name(): string {
      match this
      case Debit => "DEBIT"
      case Credit => "CREDIT"
    }
  }

  datatype TxStatus = Success | Failed | Pending {
    function Name(): string {
      match this
      case Success => "SUCCESS"
      case Failed => "FAILED"
      case Pending => "PENDING"
    }
  }

  /** The type whose canonical name is exactly `s`, if there is one. */
  function ParseType(s: string): (r: Option<TxType>)
    ensures r.Some? ==> r.value.Name() == s
    ensures forall t: TxType :: t.Name() == s ==> r == Some(t)
  {
    if s == Debit.Name() then Some(Debit)
    else if s == Credit.Name() then Some(Credit)
    else None
  }

  /** The status whose canonical name is exactly `s`, if there is one. */
  function ParseStatus(s: string): (r: Option<TxStatus>)
    ensures r.Some? ==> r.value.Name() == s
    ensures forall t: TxStatus :: t.Name() == s ==> r == Some(t)
  {
    if s == Success.Name() then Some(Success)
    else if s == Failed.Name() then Some(Failed)
    else if s == Pending.Name() then Some(Pending)
    else None
  }

  /**
   * A transaction as the store holds it. Go declares the type and status as
   * named string types, so any text can sit in them; the store's validator
   * decides which texts are admitted. The timestamp is in Unix seconds.
   */
  datatype Transaction = Transaction(
    timestamp: Int64,
    name: string,
    txType: string,
    amount: Int64,
    status: string,
    description: string,
    userID: string)

  /** An issue is a failed or pending transaction. */
  predicate IsIssue(tx: Transaction) {
    tx.status == Failed.Name() || tx.status == Pending.Name()
  }

  /** The owner test of the per-user queries. */
  function OwnedBy(userID: string): Transaction -> bool {
    (tx: Transaction) => tx.userID == userID
  }
}

=== FILE: ingest.dfy ===
/**
 * ParseAndStoreCSV: turn the rows of an uploaded statement into
 * transactions and store them as one batch.
 */
module CsvIngest {
  import opened Wrappers
  import opened Text
  import opened Numeric
  import opened Seqs
  import opened Domain
  import opened Validation
  import opened TransactionStore

  /** UploadResponseDTO. */
  datatype UploadResponse = UploadResponse(totalRows: nat, uploadStatus: string)

  datatype IngestError =
    | ShortRecord(line: nat)   // a row with fewer than six fields: the Go code panics on the index
    | NoTransactions           // "no transactions found"
    | Rejected(cause: SaveError)

  /** The store after an upload, and what the upload returned. */
  datatype Ingested = Ingested(store: Store, outcome: Result<UploadResponse, IngestError>)

  const MinimumWidth := 6

  predicate Wide(record: seq<string>) {
    |record| >= MinimumWidth
  }

  predicate AllWide(records: seq<seq<string>>) {
    forall i :: 0 <= i < |records| ==> Wide(records[i])
  }

  /**
   * The row-to-transaction coercion. Numbers are parsed with their errors
   * ignored, so an unreadable number becomes 0 and an out-of-range one the
   * int64 bound; text fields are trimmed, type and status upper-cased.
   */
  function Coerce(record: seq<string>, userID: string): (tx: Transaction)
    requires Wide(record)
    ensures tx.timestamp == ParseInt64(TrimSpace(record[0])).value
    ensures tx.name == TrimSpace(record[1])
    ensures tx.txType == ToUpper(TrimSpace(record[2]))
    ensures tx.amount == ParseInt64(TrimSpace(record[3])).value
    ensures tx.status == ToUpper(TrimSpace(record[4]))
    ensures tx.description == TrimSpace(record[5])
    ensures tx.userID == userID
  {
    Transaction(
      ParseInt64(TrimSpace(record[0])).value,
      TrimSpace(record[1]),
      ToUpper(TrimSpace(record[2])),
      ParseInt64(TrimSpace(record[3])).value,
      ToUpper(TrimSpace(record[4])),
      TrimSpace(record[5]),
      userID)
  }

  function CoerceAll(records: seq<seq<string>>, userID: string): (txs: seq<Transaction>)
    requires AllWide(records)
    ensures |txs| == |records|
    ensures forall k :: 0 <= k < |txs| ==> txs[k] == Coerce(records[k], userID)
    ensures forall k :: 0 <= k < |txs| ==> txs[k].userID == userID
  {
    seq(|records|, i requires 0 <= i < |records| => Coerce(records[i], userID))
  }

  /** The form every coerced transaction has: text fields trimmed, type and status upper case. */
  predicate Canonical(tx: Transaction) {
    && TrimSpace(tx.name) == tx.name
    && TrimSpace(tx.description) == tx.description
    && ToUpper(TrimSpace(tx.txType)) == tx.txType
    && ToUpper(TrimSpace(tx.status)) == tx.status
  }

  /** Coercion always produces the canonical form. */
  lemma CoerceIsCanonical(record: seq<string>, userID: string)
    requires Wide(record)
    ensures Canonical(Coerce(record, userID))
  {
    TrimSpaceIdempotent(record[1]);
    TrimSpaceIdempotent(record[5]);
    UpperOfTrimmed(record[2]);
    UpperIdempotent(TrimSpace(record[2]));
    UpperOfTrimmed(record[4]);
    UpperIdempotent(TrimSpace(record[4]));
  }

  /** Rebuilding the record of a canonical transaction and coercing it again
      gives back the transaction: the stored form is a fixed point. */
  lemma CoerceRebuiltRecord(tx: Transaction)
    requires Canonical(tx)
    ensures Coerce(AsRecord(tx), tx.userID) == tx
  {
    FormatIntIsTrimmed(tx.timestamp);
    FormatIntIsTrimmed(tx.amount);
    ParseFormatRoundTrip(tx.timestamp);
    ParseFormatRoundTrip(tx.amount);
  }

  /** Upper-casing a text that names w in any case gives w itself. */
  lemma UpperOfNamed(s: string, w: string)
    requires IsUpperWord(w) && |w| > 0 && EqualFold(s, w)
    ensures TrimSpace(ToUpper(s)) == w && EqualFold(w, w)
  {
    ToUpperMatches(s, w);
    assert !IsSpace(w[0]) && !IsSpace(w[|w| - 1]);
  }

  /** A type named in any case is named once upper-cased. */
  lemma UpperKeepsType(s: string)
    requires NamesType(s)
    ensures NamesType(TrimSpace(ToUpper(s)))
  {
    if EqualFold(s, Debit.Name()) {
      UpperOfNamed(s, Debit.Name());
    } else {
      UpperOfNamed(s, Credit.Name());
    }
  }

  /** A status named in any case is named once upper-cased. */
  lemma UpperKeepsStatus(s: string)
    requires NamesStatus(s)
    ensures NamesStatus(TrimSpace(ToUpper(s)))
  {
    if EqualFold(s, Success.Name()) {
      UpperOfNamed(s, Success.Name());
    } else if EqualFold(s, Failed.Name()) {
      UpperOfNamed(s, Failed.Name());
    } else {
      UpperOfNamed(s, Pending.Name());
    }
  }

  /** A row the validator accepts coerces to an acceptable transaction. */
  lemma WellFormedCoercesToAcceptable(record: seq<string>, userID: string)
    requires WellFormed(record)
    ensures Acceptable(Coerce(record, userID))
  {
    NoneBlankOfSix(record);
    UpperKeepsType(TrimSpace(record[2]));
    UpperKeepsStatus(TrimSpace(record[4]));
  }

  /** Upper-casing cannot turn a text that names no type into a type name. */
  lemma UpperNamesOnlyTypes(s: string)
    requires NamesType(TrimSpace(ToUpper(TrimSpace(s))))
    ensures NamesType(TrimSpace(s))
  {
    var t := TrimSpace(s);
    var u := ToUpper(t);
    UpperOfTrimmed(s);
    assert NamesType(u);
    UpperIdempotent(t);
    TypeCheckIsCaseInsensitive(u);
    TypeCheckIsCaseInsensitive(t);
  }

  /** Upper-casing cannot turn a text that names no status into a status name. */
  lemma UpperNamesOnlyStatuses(s: string)
    requires NamesStatus(TrimSpace(ToUpper(TrimSpace(s))))
    ensures NamesStatus(TrimSpace(s))
  {
    var t := TrimSpace(s);
    var u := ToUpper(t);
    UpperOfTrimmed(s);
    assert NamesStatus(u);
    UpperIdempotent(t);
    StatusCheckIsCaseInsensitive(u);
    StatusCheckIsCaseInsensitive(t);
  }

  /** The first row, from `from` on, with fewer than six fields. */
  function FirstShort(records: seq<seq<string>>, from: nat): (r: Option<nat>)
    requires from <= |records|
    decreases |records| - from
    ensures r.None? <==> forall i :: from <= i < |records| ==> Wide(records[i])
    ensures r.Some? ==> from <= r.value < |records| && !Wide(records[r.value])
    ensures r.Some? ==> forall i :: from <= i < r.value ==> Wide(records[i])
  {
    if from == |records| then None
    else if !Wide(records[from]) then Some(from)
    else FirstShort(records, from + 1)
  }

  /**
   * ParseAndStoreCSV: a short row aborts the upload, an empty upload is
   * refused, a batch SaveAll refuses leaves the store as it was; otherwise
   * every row is stored, in order, under the uploading user.
   */
  function ParseAndStoreCSV(st: Store, records: seq<seq<string>>, userID: string): (r: Ingested)
    ensures r.outcome.Ok? <==>
      records != [] && AllWide(records) && AllAcceptable(CoerceAll(records, userID))
    ensures r.outcome.Ok? ==>
      && r.store.transactions == st.transactions + CoerceAll(records, userID)
      && r.outcome.value == UploadResponse(|records|, "success")
    ensures r.outcome.Err? ==> r.store == st
    ensures r.outcome.Err? && r.outcome.error.ShortRecord? ==>
      var i := r.outcome.error.line;
      i < |records| && !Wide(records[i]) && forall j :: 0 <= j < i ==> Wide(records[j])
    ensures r.outcome == Err(NoTransactions) <==> records == []
    ensures r.outcome.Err? && r.outcome.error.Rejected? ==>
      AllWide(records) && r.outcome.error.cause == SaveAll(st, CoerceAll(records, userID)).outcome.error
  {
    match FirstShort(records, 0)
    case Some(i) => Ingested(st, Err(ShortRecord(i)))
    case None =>
      var txs := CoerceAll(records, userID);
      if txs == [] then Ingested(st, Err(NoTransactions))
      else
        var saved := SaveAll(st, txs);
        match saved.outcome
        case Fail(e) => Ingested(st, Err(Rejected(e)))
        case Pass => Ingested(saved.store, Ok(UploadResponse(|txs|, "success")))
  }

  /** An upload whose every row the validator accepts is stored whole. */
  lemma WellFormedUploadIsStored(st: Store, records: seq<seq<string>>, userID: string)
    requires records != []
    requires forall i :: 0 <= i < |records| ==> WellFormed(records[i])
    ensures ParseAndStoreCSV(st, records, userID).outcome.Ok?
  {
    var txs := CoerceAll(records, userID);
    forall i | 0 <= i < |records| ensures Wide(records[i]) {
      assert WellFormed(records[i]);
    }
    forall k | 0 <= k < |txs| ensures Acceptable(txs[k]) {
      WellFormedCoercesToAcceptable(records[k], userID);
    }
  }

  /** A successful upload is SaveAll of the coerced rows. */
  lemma UploadIsSaveAll(st: Store, records: seq<seq<string>>, userID: string)
    requires ParseAndStoreCSV(st, records, userID).outcome.Ok?
    ensures AllWide(records)
    ensures SaveAll(st, CoerceAll(records, userID)).outcome.Pass?
    ensures ParseAndStoreCSV(st, records, userID).store == SaveAll(st, CoerceAll(records, userID)).store
  {
    var txs := CoerceAll(records, userID);
    assert ParseAndStoreCSV(st, records, userID).store.transactions == st.transactions + txs;
  }

  /** After an upload the uploader's view grows by exactly the uploaded rows,
      in order, and every other user's view is left as it was. */
  lemma UploadGrowsOnlyOwnView(st: Store, records: seq<seq<string>>, userID: string, other: string)
    requires ParseAndStoreCSV(st, records, userID).outcome.Ok?
    ensures AllWide(records)
    ensures GetAllByUserID(ParseAndStoreCSV(st, records, userID).store, userID)
         == GetAllByUserID(st, userID) + CoerceAll(records, userID)
    ensures other != userID ==>
      GetAllByUserID(ParseAndStoreCSV(st, records, userID).store, other) == GetAllByUserID(st, other)
  {
    UploadIsSaveAll(st, records, userID);
    SaveAllOwnBatch(st, CoerceAll(records, userID), userID, other);
  }

  /** One row whose type or status names nothing, in any case, makes the
      whole upload fail and leaves the store as it was. */
  lemma UnknownNameRejectsUpload(st: Store, records: seq<seq<string>>, userID: string, i: nat)
    requires AllWide(records) && i < |records|
    requires !NamesType(TrimSpace(records[i][2])) || !NamesStatus(TrimSpace(records[i][4]))
    ensures ParseAndStoreCSV(st, records, userID).outcome.Err?
    ensures ParseAndStoreCSV(st, records, userID).store == st
  {
    var tx := CoerceAll(records, userID)[i];
    assert tx == Coerce(records[i], userID);
    if Acceptable(tx) {
      UpperNamesOnlyTypes(records[i][2]);
      UpperNamesOnlyStatuses(records[i][4]);
    }
    assert !Acceptable(tx);
  }

  /* ---------------- unreadable numbers ---------------- */

  /** A row that spells its amount "abc", the rest of it as in the upload tests,
      at any timestamp. */
  function AmountTypoRow(timestamp: Int64): seq<string> {
    [FormatInt(timestamp), "JOHN DOE", "DEBIT", "abc", "SUCCESS", "restaurant"]
  }

  /** A text with no white space at either end is its own trimmed form. */
  lemma PlainText(w: string)
    requires |w| > 0 && !IsSpace(w[0]) && !IsSpace(w[|w| - 1])
    ensures TrimSpace(w) == w && !IsBlank(w)
  {
  }

  /** An upper-case keyword is trimmed, its own upper case, and equal to itself up to case. */
  lemma Keyword(w: string)
    requires |w| > 0 && IsUpperWord(w)
    ensures TrimSpace(w) == w && ToUpper(w) == w && EqualFold(w, w) && !IsBlank(w)
  {
    PlainText(w);
    ToUpperMatches(w, w);
  }

  /** The text fields of the row are plain. */
  lemma AmountTypoRowText(timestamp: Int64)
    ensures var row := AmountTypoRow(timestamp);
      && TrimSpace(row[1]) == row[1] && !IsBlank(row[1])
      && TrimSpace(row[3]) == row[3] && !IsBlank(row[3])
      && TrimSpace(row[5]) == row[5] && !IsBlank(row[5])
      && !IsDigit(row[3][0]) && row[3] == Unsigned(row[3])
  {
    var row := AmountTypoRow(timestamp);
    PlainText(row[1]);
    PlainText(row[3]);
    PlainText(row[5]);
  }

  /** The type and status of the row are keywords. */
  lemma AmountTypoRowKeywords(timestamp: Int64)
    ensures var row := AmountTypoRow(timestamp);
      && TrimSpace(row[2]) == row[2] && ToUpper(row[2]) == row[2] && NamesType(row[2]) && !IsBlank(row[2])
      && TrimSpace(row[4]) == row[4] && ToUpper(row[4]) == row[4] && NamesStatus(row[4]) && !IsBlank(row[4])
  {
    var row := AmountTypoRow(timestamp);
    Keyword(row[2]);
    Keyword(row[4]);
  }

  /** The validator refuses the row as written, for its amount. */
  lemma AmountTypoRowIsRefused(timestamp: Int64)
    requires timestamp > 0
    ensures ValidateRecord(AmountTypoRow(timestamp)) == Fail(InvalidAmount)
  {
    var row := AmountTypoRow(timestamp);
    AmountTypoRowText(timestamp);
    AmountTypoRowKeywords(timestamp);
    FormatIntIsTrimmed(timestamp);
    ParseFormatRoundTrip(timestamp);
    NotANumberIsZero(row[3]);
    NoneBlankOfSix(row);
    assert NoneBlank(row);
    assert TypeNamed(row) && StatusNamed(row) && TimestampPositive(row);
    assert !AmountNonNegative(row);
  }

  /** The coercion turns the row into an acceptable transaction of amount 0. */
  lemma AmountTypoRowCoercesToZero(timestamp: Int64, userID: string)
    requires timestamp > 0
    ensures Coerce(AmountTypoRow(timestamp), userID).amount == 0
    ensures Acceptable(Coerce(AmountTypoRow(timestamp), userID))
  {
    var row := AmountTypoRow(timestamp);
    AmountTypoRowText(timestamp);
    AmountTypoRowKeywords(timestamp);
    FormatIntIsTrimmed(timestamp);
    ParseFormatRoundTrip(timestamp);
    NotANumberIsZero(row[3]);
  }

  /** A one-row upload whose coerced row is acceptable is stored. */
  lemma OneRowUpload(st: Store, row: seq<string>, userID: string)
    requires Wide(row) && Acceptable(Coerce(row, userID))
    ensures var up := ParseAndStoreCSV(st, [row], userID);
      up.outcome.Ok? && up.store.transactions == st.transactions + [Coerce(row, userID)]
  {
    SingleRowCoerced(row, userID);
    assert AllAcceptable([Coerce(row, userID)]);
  }

  /** A one-row upload coerces to that row's transaction alone. */
  lemma SingleRowCoerced(row: seq<string>, userID: string)
    requires Wide(row)
    ensures AllWide([row]) && CoerceAll([row], userID) == [Coerce(row, userID)]
  {
    assert [row][0] == row;
  }

  /** A row whose amount is not a number passes through the upload as amount 0:
      the coercion drops the parse error and the store only sees the printed 0. */
  lemma UnreadableAmountStoredAsZero(timestamp: Int64, userID: string)
    requires timestamp > 0
    ensures ValidateRecord(AmountTypoRow(timestamp)) == Fail(InvalidAmount)
    ensures var up := ParseAndStoreCSV(NewStore(), [AmountTypoRow(timestamp)], userID);
      && up.outcome.Ok?
      && |up.store.transactions| == 1
      && up.store.transactions[0].amount == 0
  {
    AmountTypoRowIsRefused(timestamp);
    AmountTypoRowCoercesToZero(timestamp, userID);
    OneRowUpload(NewStore(), AmountTypoRow(timestamp), userID);
  }

  /** The six fields of a row the upload reads. */
  function Used(record: seq<string>): (used: seq<string>)
    requires Wide(record)
    ensures SixFields(used)
  {
    record[..MinimumWidth]
  }

  /** Every row at a position in [lo, hi) passes the validator on its six fields. */
  predicate WellFormedBetween(records: seq<seq<string>>, lo: nat, hi: nat)
    requires AllWide(records) && lo <= hi <= |records|
  {
    forall i :: lo <= i < hi ==> WellFormed(Used(records[i]))
  }

  lemma WellFormedBetweenStep(records: seq<seq<string>>, lo: nat, hi: nat)
    requires AllWide(records) && lo < hi <= |records|
    ensures WellFormedBetween(records, lo, hi) <==>
      WellFormed(Used(records[lo])) && WellFormedBetween(records, lo + 1, hi)
  {
    if WellFormed(Used(records[lo])) && WellFormedBetween(records, lo + 1, hi) {
      forall i | lo <= i < hi
        ensures WellFormed(Used(records[i]))
      {
        if i > lo {
          assert lo + 1 <= i < hi;
        }
      }
    }
  }

  /** The first row, from `from` on, whose six fields the validator refuses. */
  function FirstMalformed(records: seq<seq<string>>, from: nat): (r: Option<SaveError>)
    requires AllWide(records) && from <= |records|
    decreases |records| - from
    ensures r.None? <==> WellFormedBetween(records, from, |records|)
    ensures r.Some? ==>
      && from <= r.value.index < |records|
      && ValidateRecord(Used(records[r.value.index])) == Fail(r.value.cause)
      && WellFormedBetween(records, from, r.value.index)
  {
    if from == |records| then None
    else match ValidateRecord(Used(records[from]))
      case Fail(e) =>
        WellFormedBetweenStep(records, from, |records|);
        Some(SaveError(from, e))
      case Pass =>
        var rest := FirstMalformed(records, from + 1);
        WellFormedBetweenStep(records, from, if rest.Some? then rest.value.index else |records|);
        rest
  }

  /**
   * The upload with every row validated as written, before its numbers are
   * coerced: a row the validator refuses is reported with the validator's
   * error, and an accepted upload stores exactly the numbers the rows spell.
   */
  function ParseAndStoreCSVChecked(st: Store, records: seq<seq<string>>, userID: string): (r: Ingested)
    ensures r.outcome.Ok? <==>
      records != [] && AllWide(records) && WellFormedBetween(records, 0, |records|)
    ensures r.outcome.Ok? ==>
      && r.store.transactions == st.transactions + CoerceAll(records, userID)
      && r.outcome.value == UploadResponse(|records|, "success")
    ensures r.outcome.Err? ==> r.store == st
    ensures r.outcome.Err? && r.outcome.error.Rejected? ==>
      var e := r.outcome.error.cause;
      e.index < |records| && Wide(records[e.index]) && ValidateRecord(Used(records[e.index])) == Fail(e.cause)
  {
    match FirstShort(records, 0)
    case Some(i) => Ingested(st, Err(ShortRecord(i)))
    case None =>
      if records == [] then Ingested(st, Err(NoTransactions))
      else match FirstMalformed(records, 0)
        case Some(e) => Ingested(st, Err(Rejected(e)))
        case None =>
          var txs := CoerceAll(records, userID);
          CheckedRowsAreAcceptable(records, userID);
          Ingested(SaveAll(st, txs).store, Ok(UploadResponse(|txs|, "success")))
  }

  lemma CheckedRowsAreAcceptable(records: seq<seq<string>>, userID: string)
    requires AllWide(records) && WellFormedBetween(records, 0, |records|)
    ensures AllAcceptable(CoerceAll(records, userID))
  {
    var txs := CoerceAll(records, userID);
    forall k | 0 <= k < |txs| ensures Acceptable(txs[k]) {
      WellFormedCoercesToAcceptable(Used(records[k]), userID);
      assert Coerce(Used(records[k]), userID) == txs[k];
    }
  }

  /** A row the validator accepts is coerced to the timestamp and amount it spells. */
  lemma WellFormedRowKeepsNumbers(record: seq<string>, userID: string)
    requires Wide(record) && WellFormed(Used(record))
    ensures var tx := Coerce(record, userID);
      && IsDecimalLiteral(TrimSpace(record[0])) && tx.timestamp == LiteralValue(TrimSpace(record[0]))
      && IsDecimalLiteral(TrimSpace(record[3])) && tx.amount == LiteralValue(TrimSpace(record[3]))
  {
    var used := Used(record);
    assert used[0] == record[0] && used[3] == record[3];
    ParseInt64Success(TrimSpace(record[0]));
    ParseInt64Success(TrimSpace(record[3]));
  }

  /** Every transaction the checked upload stores carries the timestamp and
      amount its row spells. */
  lemma CheckedUploadKeepsNumbers(st: Store, records: seq<seq<string>>, userID: string, i: nat)
    requires ParseAndStoreCSVChecked(st, records, userID).outcome.Ok? && i < |records|
    ensures var stored := ParseAndStoreCSVChecked(st, records, userID).store.transactions;
      && |st.transactions| + i < |stored|
      && IsDecimalLiteral(TrimSpace(records[i][0]))
      && stored[|st.transactions| + i].timestamp == LiteralValue(TrimSpace(records[i][0]))
      && IsDecimalLiteral(TrimSpace(records[i][3]))
      && stored[|st.transactions| + i].amount == LiteralValue(TrimSpace(records[i][3]))
  {
    CheckedRowWellFormed(st, records, userID, i);
    CheckedStoresRow(st, records, userID, i);
    WellFormedRowKeepsNumbers(records[i], userID);
  }

  /** Every row of a successful checked upload is wide and passes the validator. */
  lemma CheckedRowWellFormed(st: Store, records: seq<seq<string>>, userID: string, i: nat)
    requires ParseAndStoreCSVChecked(st, records, userID).outcome.Ok? && i < |records|
    ensures Wide(records[i]) && WellFormed(Used(records[i]))
  {
    assert AllWide(records) && WellFormedBetween(records, 0, |records|);
  }

  /** Row i of a successful checked upload is stored, coerced, after the earlier transactions. */
  lemma CheckedStoresRow(st: Store, records: seq<seq<string>>, userID: string, i: nat)
    requires ParseAndStoreCSVChecked(st, records, userID).outcome.Ok? && i < |records|
    ensures Wide(records[i])
    ensures var stored := ParseAndStoreCSVChecked(st, records, userID).store.transactions;
      |st.transactions| + i < |stored| && stored[|st.transactions| + i] == Coerce(records[i], userID)
  {
    var stored := ParseAndStoreCSVChecked(st, records, userID).store.transactions;
    assert AllWide(records) && stored == st.transactions + CoerceAll(records, userID);
    AppendedAt(st.transactions, CoerceAll(records, userID), stored, i);
  }

  /** In an appended sequence the i-th appended element sits after the earlier ones. */
  lemma AppendedAt<T>(earlier: seq<T>, added: seq<T>, all: seq<T>, i: nat)
    requires all == earlier + added && i < |added|
    ensures |earlier| + i < |all| && all[|earlier| + i] == added[i]
  {
  }
}

=== FILE: issue_view.dfy ===
/** GetIssues: the service's issue listing, the repository's page turned into response rows. */
module IssueListing {
  import opened Wrappers
  import opened Numeric
  import opened Domain
  import opened TransactionStore
  import opened IssueSort
  import opened Paging
  import opened IssueQuery

  /**
   * TransactionDTO: a transaction as the response shows it. The owner is
   * dropped; the timestamp stays the Unix second (its RFC 3339 rendering is
   * not modelled).
   */
  datatype TransactionView = TransactionView(
    timestamp: Int64,
    name: string,
    txType: string,
    amount: Int64,
    status: string,
    description: string)

  /** IssuesResponseDTO: the rows of one page and the repository's total. */
  datatype IssuesResponse = IssuesResponse(transactions: seq<TransactionView>, total: nat)

  /** The response row of a transaction: every field but the owner, unchanged. */
  function View(tx: Transaction): (r: TransactionView)
    ensures Owned(r, tx.userID) == tx
  {
    TransactionView(tx.timestamp, tx.name, tx.txType, tx.amount, tx.status, tx.description)
  }

  /** The transaction a row was made from, given its owner. */
  function Owned(v: TransactionView, userID: string): Transaction {
    Transaction(v.timestamp, v.name, v.txType, v.amount, v.status, v.description, userID)
  }

  /** Every row shows a FAILED or PENDING status. */
  predicate IssueRows(rows: seq<TransactionView>) {
    forall k :: 0 <= k < |rows| ==> rows[k].status in {Failed.Name(), Pending.Name()}
  }

  /** One row per transaction, in order; with the owner each row gives back its transaction. */
  function Rows(items: seq<Transaction>, userID: string): (rows: seq<TransactionView>)
    requires OwnedIssues(items, userID)
    ensures |rows| == |items| && IssueRows(rows)
    ensures forall k :: 0 <= k < |rows| ==> Owned(rows[k], userID) == items[k]
  {
    seq(|items|, k requires 0 <= k < |items| => View(items[k]))
  }

  /**
   * GetIssues: the repository's error is passed through unchanged;
   * otherwise one row per listed issue, in the page's order, each showing a
   * FAILED or PENDING status, with the repository's total.
   */
  function GetIssues(st: Store, pagination: PageRequest, sorting: Sorting, userID: string)
    : (r: Result<IssuesResponse, SortError>)
    ensures r.Err? <==> GetAllIssues(st, userID, pagination, sorting).Err?
    ensures r.Err? ==> r.error == InvalidSortField(sorting.sortBy)
    ensures r.Ok? ==> |r.value.transactions| <= EffectiveLimit(pagination.limit)
    ensures r.Ok? ==> IssueRows(r.value.transactions)
    ensures r.Ok? ==> r.value.total == if r.value.transactions == [] then 0 else |UserIssues(st, userID)|
    ensures r.Ok? ==> |r.value.transactions| == |GetAllIssues(st, userID, pagination, sorting).value.items|
    ensures r.Ok? ==> forall k :: 0 <= k < |r.value.transactions| ==>
      Owned(r.value.transactions[k], userID) == GetAllIssues(st, userID, pagination, sorting).value.items[k]
  {
    match GetAllIssues(st, userID, pagination, sorting)
    case Err(e) => Err(e)
    case Ok(page) =>
      Ok(IssuesResponse(Rows(page.items, userID), page.total))
  }

  /** Every row of the response is one of the user's issues, and each issue appears at most as often as stored. */
  lemma RowsAreUserIssues(st: Store, pagination: PageRequest, sorting: Sorting, userID: string)
    requires GetIssues(st, pagination, sorting, userID).Ok?
    ensures var rows := GetIssues(st, pagination, sorting, userID).value.transactions;
      multiset(seq(|rows|, k requires 0 <= k < |rows| => Owned(rows[k], userID))) <= multiset(UserIssues(st, userID))
  {
    var page := GetAllIssues(st, userID, pagination, sorting);
    var rows := GetIssues(st, pagination, sorting, userID).value.transactions;
    assert page.Ok? && |rows| == |page.value.items| &&
      forall k :: 0 <= k < |rows| ==> Owned(rows[k], userID) == page.value.items[k];
    RestoredRows(rows, page.value.items, userID);
    assert multiset(page.value.items) <= multiset(UserIssues(st, userID));
  }

  /** Rows that each restore their item restore the whole sequence of items. */
  lemma RestoredRows(rows: seq<TransactionView>, items: seq<Transaction>, userID: string)
    requires |rows| == |items| && forall k :: 0 <= k < |rows| ==> Owned(rows[k], userID) == items[k]
    ensures seq(|rows|, k requires 0 <= k < |rows| => Owned(rows[k], userID)) == items
  {
  }
}

=== FILE: issues.dfy ===
/**
 * GetAllIssues: a user's failed and pending transactions, sorted by the
 * requested field and cut into the requested page.
 */
module IssueQuery {
  import opened Wrappers
  import opened Text
  import opened Numeric
  import opened Seqs
  import opened Domain
  import opened TransactionStore
  import opened IssueSort
  import opened Paging

  /** SortingDTO: the direction ("ASC"/"DESC") and the field name, both optional. */
  datatype Sorting = Sorting(direction: string, sortBy: string)

  /** The field sorted by when the request names none. */
  function EffectiveSortBy(sorting: Sorting): string {
    if sorting.sortBy == "" then "timestamp" else sorting.sortBy
  }

  /** The direction used when the request names none. */
  function EffectiveDirection(sorting: Sorting): string {
    if sorting.direction == "" then "ASC" else sorting.direction
  }

  /** Only an explicit "DESC" (in any case) sorts descending. */
  predicate Ascending(sorting: Sorting) {
    !EqualFold(sorting.direction, "DESC")
  }

  /** Every transaction listed belongs to the user and is an issue. */
  predicate OwnedIssues(txs: seq<Transaction>, userID: string) {
    forall k :: 0 <= k < |txs| ==> txs[k].userID == userID && IsIssue(txs[k])
  }

  /** Sorted by the requested (or default) field in the requested direction. */
  predicate SortedAsRequested(sorting: Sorting, txs: seq<Transaction>) {
    forall f: SortField :: EqualFold(EffectiveSortBy(sorting), f.Name()) ==> SortedBy(f, Ascending(sorting), txs)
  }

  /** The user's transactions whose status is FAILED or PENDING, in store order. */
  function UserIssues(st: Store, userID: string): (r: seq<Transaction>)
    ensures OwnedIssues(r, userID)
  {
    var mine := GetAllByUserID(st, userID);
    FilterKeeps(mine, IsIssue, OwnedBy(userID));
    Filter(mine, IsIssue)
  }

  /** The user's issues hold every stored issue of that user as often as the store does, and nothing else. */
  lemma UserIssuesContents(st: Store, userID: string)
    ensures forall t ::
      multiset(UserIssues(st, userID))[t] == if t.userID == userID && IsIssue(t) then multiset(GetAll(st))[t] else 0
  {
    FilterContents(GetAllByUserID(st, userID), IsIssue);
  }

  /** The user's issues in the requested order, before paging. */
  function SortedIssues(st: Store, userID: string, sorting: Sorting): Result<seq<Transaction>, SortError> {
    SortTransactions(UserIssues(st, userID), EffectiveDirection(sorting), EffectiveSortBy(sorting))
  }

  lemma DefaultsAgree(sorting: Sorting)
    ensures EqualFold(EffectiveDirection(sorting), "DESC") == EqualFold(sorting.direction, "DESC")
    ensures sorting.sortBy == "" ==> EqualFold(EffectiveSortBy(sorting), ByTimestamp.Name())
    ensures sorting.sortBy == "" ==> forall f: SortField :: !EqualFold(sorting.sortBy, f.Name())
  {
    assert !EqualFold("ASC", "DESC") by {
      assert !SameIgnoringCase("ASC"[0], "DESC"[0]);
    }
    if sorting.sortBy == "" {
      forall f: SortField ensures !EqualFold(sorting.sortBy, f.Name()) {
        assert |f.Name()| > 0;
      }
    }
  }

  /**
   * GetAllIssues: fails only for an unknown sort field, and then only when
   * there are two or more issues to sort; otherwise returns the window of
   * the sorted issues that starts at (page - 1) * limit and holds
   * min(limit, what is left) of them, in the requested order, with the
   * number of issues as total, or an empty page and total 0 past the last page.
   */
  function GetAllIssues(st: Store, userID: string, pagination: PageRequest, sorting: Sorting)
    : (r: Result<Page<Transaction>, SortError>)
    ensures r.Err? <==> (|UserIssues(st, userID)| >= 2 && sorting.sortBy != "" &&
      forall f: SortField :: !EqualFold(sorting.sortBy, f.Name()))
    ensures r.Err? ==> r.error == InvalidSortField(sorting.sortBy)
    ensures r.Ok? ==> SortedIssues(st, userID, sorting).Ok?
    ensures r.Ok? ==>
      IssuePage(r.value, UserIssues(st, userID), SortedIssues(st, userID, sorting).value, pagination, sorting, userID)
  {
    DefaultsAgree(sorting);
    match SortedIssues(st, userID, sorting)
    case Err(e) => Err(e)
    case Ok(s) =>
      SortedPage(UserIssues(st, userID), s, pagination, sorting, userID);
      Ok(Paginate(s, pagination))
  }

  /**
   * What the query returns for the user's `issues` once sorted into
   * `sorted`: the window of `sorted` starting at the page's offset, holding
   * min(limit, what is left) items, never more than `limit`; it is empty
   * exactly past the last issue, reports the issue count as total (0 on an
   * empty page), and lists only the user's issues, each at most as often as
   * stored, in the requested order.
   */
  ghost predicate IssuePage(p: Page<Transaction>, issues: seq<Transaction>, sorted: seq<Transaction>,
                            pagination: PageRequest, sorting: Sorting, userID: string) {
    && |p.items| <= EffectiveLimit(pagination.limit)
    && (p.items != [] <==> Offset(pagination) < |issues|)
    && p.total == (if p.items == [] then 0 else |issues|)
    && OwnedIssues(p.items, userID)
    && multiset(p.items) <= multiset(issues)
    && SortedAsRequested(sorting, p.items)
    && (Offset(pagination) < |issues| ==>
      |p.items| == Min(EffectiveLimit(pagination.limit), |issues| - Offset(pagination)))
    && IsWindow(p.items, sorted, pagination)
  }

  /** The page cut from a sorted permutation of the user's issues is an IssuePage. */
  lemma SortedPage(issues: seq<Transaction>, s: seq<Transaction>, pagination: PageRequest, sorting: Sorting, userID: string)
    requires multiset(s) == multiset(issues) && OwnedIssues(issues, userID) && SortedAsRequested(sorting, s)
    ensures IssuePage(Paginate(s, pagination), issues, s, pagination, sorting, userID)
  {
    assert |s| == |multiset(s)| == |multiset(issues)| == |issues|;
    WindowIsSubMultiset(issues, s, pagination);
    WindowKeepsOwnership(issues, s, pagination, userID);
    WindowIsSorted(s, pagination, sorting);
  }

  /** A page cut from a permutation of the issues holds some of the issues. */
  lemma WindowIsSubMultiset(issues: seq<Transaction>, s: seq<Transaction>, pagination: PageRequest)
    requires multiset(s) == multiset(issues)
    ensures multiset(Paginate(s, pagination).items) <= multiset(issues)
  {
    var items := Paginate(s, pagination).items;
    var lo := Offset(pagination);
    if lo < |s| {
      var hi := lo + |items|;
      assert items == s[lo..hi];
      assert s == s[..lo] + s[lo..hi] + s[hi..];
      assert multiset(s) == multiset(s[..lo]) + multiset(items) + multiset(s[hi..]);
    }
  }

  /** A page cut from a permutation of the user's issues lists only the user's issues. */
  lemma WindowKeepsOwnership(issues: seq<Transaction>, s: seq<Transaction>, pagination: PageRequest, userID: string)
    requires multiset(s) == multiset(issues) && OwnedIssues(issues, userID)
    ensures OwnedIssues(Paginate(s, pagination).items, userID)
  {
    var items := Paginate(s, pagination).items;
    WindowIsSubMultiset(issues, s, pagination);
    forall k | 0 <= k < |items| ensures items[k].userID == userID && IsIssue(items[k]) {
      var x := items[k];
      assert x in multiset(items);
      assert x in multiset(issues);
      var j :| 0 <= j < |issues| && issues[j] == x;
    }
  }

  /** A page cut from a sorted sequence is sorted. */
  lemma WindowIsSorted(s: seq<Transaction>, pagination: PageRequest, sorting: Sorting)
    requires SortedAsRequested(sorting, s)
    ensures SortedAsRequested(sorting, Paginate(s, pagination).items)
  {
    var items := Paginate(s, pagination).items;
    forall f: SortField | EqualFold(EffectiveSortBy(sorting), f.Name())
      ensures SortedBy(f, Ascending(sorting), items)
    {
      WindowSortedBy(items, s, pagination, f, Ascending(sorting));
    }
  }

  /** A window of a sequence sorted by one key is sorted by that key. */
  lemma WindowSortedBy(items: seq<Transaction>, s: seq<Transaction>, pagination: PageRequest, f: SortField, ascending: bool)
    requires IsWindow(items, s, pagination) && SortedBy(f, ascending, s)
    ensures SortedBy(f, ascending, items)
  {
    var lo := Offset(pagination);
    forall k, l | 0 <= k < l < |items| ensures InOrder(f, ascending, items[k], items[l]) {
      assert items[k] == s[lo + k];
      assert items[l] == s[lo + l];
    }
  }

  /** Whenever the sort succeeds, the query's page is exactly the window of the sorted issues. */
  lemma GetAllIssuesIsWindow(st: Store, userID: string, pagination: PageRequest, sorting: Sorting)
    requires SortedIssues(st, userID, sorting).Ok?
    ensures GetAllIssues(st, userID, pagination, sorting) == Ok(Paginate(SortedIssues(st, userID, sorting).value, pagination))
  {
  }

  /**
   * Paging through enough pages at a fixed limit lists every issue of the
   * user exactly once, in the requested order: page j of the query is the
   * j-th window of the sorted issues (GetAllIssuesIsWindow), and the first
   * k windows together are a sorted permutation of the user's issues.
   */
  lemma PagesListEveryIssueOnce(st: Store, userID: string, limit: Int64, sorting: Sorting, k: nat)
    requires 1 <= limit && k <= MaxInt64 && |UserIssues(st, userID)| <= k * limit
    requires GetAllIssues(st, userID, PageRequest(1, limit), sorting).Ok?
    ensures SortedIssues(st, userID, sorting).Ok?
    ensures var pages := FirstPages(SortedIssues(st, userID, sorting).value, limit, k);
      && multiset(pages) == multiset(UserIssues(st, userID))
      && SortedAsRequested(sorting, pages)
  {
    var sorted := SortedIssues(st, userID, sorting);
    DefaultsAgree(sorting);
    assert sorted.Ok?;
    EnoughPagesListEverything(sorted.value, limit, k);
  }

  /** An empty store, or one just cleared, has no issues: every page is empty. */
  lemma ClearedStoreHasNoIssues(st: Store, userID: string, pagination: PageRequest, sorting: Sorting)
    ensures GetAllIssues(Clear(st), userID, pagination, sorting) == Ok(Page([], 0))
  {
    ClearEmptiesEveryView(st, userID);
    assert UserIssues(Clear(st), userID) == [];
  }
}

=== FILE: numeric.dfy ===
/**
 * Go's 64-bit integers and the two `strconv` calls the core makes:
 * ParseInt(s, 10, 64) and FormatInt(n, 10).
 */
module Numeric {
  import opened Text

  const TwoTo63: int := 0x8000_0000_0000_0000
  const TwoTo64: int := 0x1_0000_0000_0000_0000
  const MaxUint64: int := 0xffff_ffff_ffff_ffff

  /** Go's int64 (and `int` on the 64-bit targets the service is built for). */
  type Int64 = x: int | -0x8000_0000_0000_0000 <= x <= 0x7fff_ffff_ffff_ffff

  const MinInt64: Int64 := -0x8000_0000_0000_0000
  const MaxInt64: Int64 := 0x7fff_ffff_ffff_ffff

  /** Two's-complement wrap-around of a mathematical result to int64. */
  function Wrap64(x: int): (r: Int64)
    ensures (x - r) % TwoTo64 == 0
    ensures MinInt64 <= x <= MaxInt64 ==> r == x
  {
    ((x + TwoTo63) % TwoTo64) - TwoTo63
  }

  /** Wrapping an intermediate sum does not change the wrapped total. */
  lemma Wrap64Add(a: int, b: int)
    ensures Wrap64(Wrap64(a) + b) == Wrap64(a + b)
  {
    var k := (a - Wrap64(a)) / TwoTo64;
    assert a - Wrap64(a) == k * TwoTo64;
    Wrap64Shift(a + b, k);
  }

  lemma Wrap64Shift(x: int, k: int)
    ensures Wrap64(x - k * TwoTo64) == Wrap64(x)
  {
    var r1 := Wrap64(x - k * TwoTo64);
    var r2 := Wrap64(x);
    var q1 := (x - k * TwoTo64 - r1) / TwoTo64;
    var q2 := (x - r2) / TwoTo64;
    assert x - k * TwoTo64 - r1 == q1 * TwoTo64;
    assert x - r2 == q2 * TwoTo64;
    assert r1 - r2 == (q2 - q1 - k) * TwoTo64;
    SameWhenCongruent(r1, r2, q2 - q1 - k);
  }

  /** Two int64 values a multiple of 2^64 apart are equal. */
  lemma SameWhenCongruent(a: Int64, b: Int64, q: int)
    requires a - b == q * TwoTo64
    ensures a == b
  {
    MultipleBound(q);
  }

  /** A nonzero multiple of 2^64 is at least 2^64 away from zero. */
  lemma MultipleBound(q: int)
    ensures q >= 1 ==> q * TwoTo64 >= TwoTo64
    ensures q <= -1 ==> q * TwoTo64 <= -TwoTo64
  {
  }

  /* ---------------- decimal digits ---------------- */

  predicate IsDigit(c: char) { '0' <= c <= '9' }

  predicate AllDigits(s: string) {
    forall k :: 0 <= k < |s| ==> IsDigit(s[k])
  }

  function DigitValue(c: char): nat
    requires IsDigit(c)
  {
    c as int - '0' as int
  }

  function DigitChar(d: nat): (c: char)
    requires d < 10
    ensures IsDigit(c) && DigitValue(c) == d
  {
    ('0' as int + d) as char
  }

  /** The mathematical value of a digit string (no bound). */
  function DigitsValue(s: string): nat
    requires AllDigits(s)
  {
    if |s| == 0 then 0 else DigitsValue(s[..|s| - 1]) * 10 + DigitValue(s[|s| - 1])
  }

  /** The outcome of strconv.ParseUint(s, 10, 64). */
  datatype UintScan = Digits(value: nat) | SyntaxError | RangeError

  /**
   * ParseUint's digit loop, read left to right: the first character that is
   * not a digit is a syntax error and the first digit that takes the value
   * past 2^64 - 1 is a range error, whichever comes first.
   */
  function ScanDigits(s: string): UintScan {
    if |s| == 0 then Digits(0)
    else
      var c := s[|s| - 1];
      match ScanDigits(s[..|s| - 1])
      case SyntaxError => SyntaxError
      case RangeError => RangeError
      case Digits(v) =>
        if !IsDigit(c) then SyntaxError
        else if v * 10 + DigitValue(c) > MaxUint64 then RangeError
        else Digits(v * 10 + DigitValue(c))
  }

  /** The scan succeeds exactly on digit strings whose value fits in 64 bits,
      and a digit string is never a syntax error. */
  lemma {:induction false} ScanDigitsMeaning(s: string)
    ensures ScanDigits(s).Digits? <==> AllDigits(s) && DigitsValue(s) <= MaxUint64
    ensures ScanDigits(s).Digits? ==> ScanDigits(s).value == DigitsValue(s)
    ensures AllDigits(s) ==> !ScanDigits(s).SyntaxError?
  {
    if |s| > 0 {
      var p := s[..|s| - 1];
      ScanDigitsMeaning(p);
      if AllDigits(s) {
        assert AllDigits(p);
      }
    }
  }

  function ParseUint64(s: string): UintScan {
    if |s| == 0 then SyntaxError else ScanDigits(s)
  }

  /** The pair `(value, err == nil)` that strconv.ParseInt(s, 10, 64) returns. */
  datatype IntParse = IntParse(value: Int64, ok: bool)

  /** An optional sign followed by at least one decimal digit. */
  predicate IsDecimalLiteral(s: string) {
    var digits := Unsigned(s);
    |digits| > 0 && AllDigits(digits)
  }

  function Unsigned(s: string): string {
    if |s| > 0 && (s[0] == '+' || s[0] == '-') then s[1..] else s
  }

  function LiteralValue(s: string): int
    requires IsDecimalLiteral(s)
  {
    if s[0] == '-' then -(DigitsValue(Unsigned(s)) as int) else DigitsValue(Unsigned(s))
  }

  /**
   * strconv.ParseInt(s, 10, 64). A syntax error yields 0; an out-of-range
   * value yields the int64 bound of its sign; both report failure.
   */
  function ParseInt64(s: string): IntParse {
    if |s| == 0 then IntParse(0, false)
    else
      var neg := s[0] == '-';
      match ParseUint64(Unsigned(s))
      case SyntaxError => IntParse(0, false)
      case RangeError => IntParse(if neg then MinInt64 else MaxInt64, false)
      case Digits(u) =>
        if !neg && u >= TwoTo63 then IntParse(MaxInt64, false)
        else if neg && u > TwoTo63 then IntParse(MinInt64, false)
        else IntParse(if neg then -(u as int) else u, true)
  }

  /** ParseInt64 succeeds exactly on the decimal literals of the int64 range,
      and then yields the literal's value. */
  lemma ParseInt64Success(s: string)
    ensures ParseInt64(s).ok <==> IsDecimalLiteral(s) && MinInt64 <= LiteralValue(s) <= MaxInt64
    ensures ParseInt64(s).ok ==> ParseInt64(s).value == LiteralValue(s)
  {
    ScanDigitsMeaning(Unsigned(s));
  }

  /** A failed parse yields 0 or, for a literal beyond the int64 range, the bound of its sign. */
  lemma ParseInt64Failure(s: string)
    ensures IsDecimalLiteral(s) && LiteralValue(s) > MaxInt64 ==> ParseInt64(s) == IntParse(MaxInt64, false)
    ensures IsDecimalLiteral(s) && LiteralValue(s) < MinInt64 ==> ParseInt64(s) == IntParse(MinInt64, false)
    ensures !ParseInt64(s).ok ==> ParseInt64(s).value in {0, MinInt64, MaxInt64}
  {
    ScanDigitsMeaning(Unsigned(s));
  }

  /** A scan that meets a non-digit before any digit stops with a syntax error. */
  lemma {:induction false} LeadingNonDigit(s: string)
    requires |s| > 0 && !IsDigit(s[0])
    ensures ScanDigits(s) == SyntaxError
  {
    if |s| > 1 {
      var p := s[..|s| - 1];
      assert p[0] == s[0];
      LeadingNonDigit(p);
    }
  }

  /** A text that does not start with a digit (after its sign) parses as 0, with an error. */
  lemma NotANumberIsZero(s: string)
    requires Unsigned(s) == "" || !IsDigit(Unsigned(s)[0])
    ensures ParseInt64(s) == IntParse(0, false)
  {
    if Unsigned(s) != "" {
      LeadingNonDigit(Unsigned(s));
    }
  }

  /* ---------------- formatting ---------------- */

  function FormatNat(n: nat): (r: string)
    ensures |r| > 0 && AllDigits(r) && DigitsValue(r) == n
  {
    if n < 10 then [DigitChar(n)]
    else
      var r := FormatNat(n / 10) + [DigitChar(n % 10)];
      assert r[..|r| - 1] == FormatNat(n / 10);
      r
  }

  /** strconv.FormatInt(n, 10). */
  function FormatInt(n: int): string {
    if n < 0 then "-" + FormatNat(-n) else FormatNat(n)
  }

  /** Parsing what FormatInt printed gives back the same int64, without error. */
  lemma ParseFormatRoundTrip(n: Int64)
    ensures ParseInt64(FormatInt(n)) == IntParse(n, true)
  {
    var s := FormatInt(n);
    if n < 0 {
      assert Unsigned(s) == FormatNat(-(n as int));
    } else {
      assert Unsigned(s) == FormatNat(n);
    }
    ScanDigitsMeaning(Unsigned(s));
  }

  /** A printed integer is never blank and has no white space to trim. */
  lemma FormatIntIsTrimmed(n: int)
    ensures !IsBlank(FormatInt(n))
    ensures TrimSpace(FormatInt(n)) == FormatInt(n)
  {
    var s := FormatInt(n);
    var d := if n < 0 then FormatNat(-n) else FormatNat(n);
    assert IsDigit(d[0]) && IsDigit(d[|d| - 1]);
    assert s[|s| - 1] == d[|d| - 1];
    assert !IsSpace(s[0]);
  }
}

=== FILE: pagination.dfy ===
/**
 * The paging step of the issue query: clamp the page and limit, then cut
 * the window [(page - 1) * limit, page * limit) out of the sorted issues.
 */
module Paging {
  import opened Wrappers
  import opened Numeric

  /** PaginationDTO: Go `int` fields, 64-bit on the service's targets. */
  datatype PageRequest = PageRequest(page: Int64, limit: Int64)

  /** The limit used when the request gives none (or a non-positive one). */
  const DefaultLimit: Int64 := 10

  /** A page below 1 is read as page 1. */
  function EffectivePage(page: Int64): (r: Int64)
    ensures 1 <= r
    ensures page < 1 ==> r == 1
    ensures page >= 1 ==> r == page
  {
    if page < 1 then 1 else page
  }

  /** A limit below 1 is read as the default limit. */
  function EffectiveLimit(limit: Int64): (r: Int64)
    ensures 1 <= r
    ensures limit < 1 ==> r == DefaultLimit
    ensures limit >= 1 ==> r == limit
  {
    if limit < 1 then DefaultLimit else limit
  }

  /** The position of the page's first item, computed without overflow. */
  function Offset(req: PageRequest): nat {
    var skipped: nat := EffectivePage(req.page) - 1;
    var limit: nat := EffectiveLimit(req.limit);
    skipped * limit
  }

  function Min(a: int, b: int): int {
    if a < b then a else b
  }

  /** The page's items are empty or the run of `all` that starts at the page's offset. */
  ghost predicate IsWindow<T>(items: seq<T>, all: seq<T>, req: PageRequest) {
    items == [] || (Offset(req) + |items| <= |all| && items == all[Offset(req)..Offset(req) + |items|])
  }

  /** The items of one page and the total the query reports with it. */
  datatype Page<T> = Page(items: seq<T>, total: nat)

  /**
   * The paging step with the offset computed exactly: the page holds the
   * items from the offset on, at most `limit` of them; a page past the end
   * is empty and reports total 0, any other page reports the full count.
   */
  function Paginate<T>(all: seq<T>, req: PageRequest): (r: Page<T>)
    ensures |r.items| <= EffectiveLimit(req.limit)
    ensures r.items != [] <==> Offset(req) < |all|
    ensures r.total == if Offset(req) < |all| then |all| else 0
    ensures IsWindow(r.items, all, req)
    ensures Offset(req) < |all| ==>
      |r.items| == Min(EffectiveLimit(req.limit), |all| - Offset(req))
  {
    var start := Offset(req);
    var end := start + EffectiveLimit(req.limit);
    if start >= |all| then Page([], 0)
    else Page(all[start..if end > |all| then |all| else end], |all|)
  }

  /** The items of pages 1 to k, one after another, at a fixed limit. */
  function FirstPages<T>(all: seq<T>, limit: Int64, k: nat): seq<T>
    requires k <= MaxInt64
  {
    if k == 0 then []
    else FirstPages(all, limit, k - 1) + Paginate(all, PageRequest(k as Int64, limit)).items
  }

  /** Pages 1 to k, read in order, are exactly the first k * limit items:
      no item is skipped or repeated between consecutive pages. */
  lemma {:induction false} PagesCover<T>(all: seq<T>, limit: Int64, k: nat)
    requires 1 <= limit && k <= MaxInt64
    ensures FirstPages(all, limit, k) == all[..Min(k * limit, |all|)]
  {
    if k > 0 {
      PagesCover(all, limit, k - 1);
      var req := PageRequest(k as Int64, limit);
      var page := Paginate(all, req);
      var before := Min((k - 1) * limit, |all|);
      var after := Min(k * limit, |all|);
      assert Offset(req) == (k - 1) * limit;
      if Offset(req) < |all| {
        assert page.items == all[before..after];
      } else {
        assert page.items == [];
        assert before == after;
      }
      assert all[..before] + all[before..after] == all[..after];
    }
  }

  /** Paging far enough lists every item exactly once, in order. */
  lemma EnoughPagesListEverything<T>(all: seq<T>, limit: Int64, k: nat)
    requires 1 <= limit && k <= MaxInt64 && |all| <= k * limit
    ensures FirstPages(all, limit, k) == all
  {
    PagesCover(all, limit, k);
    assert all[..|all|] == all;
  }

  /* ---------------- the arithmetic as written, in int64 ---------------- */

  /** Go's runtime panic for a slice expression whose bounds are out of order or negative. */
  datatype SliceError = SliceOutOfRange(start: int, end: int)

  /**
   * The paging step as the repository writes it: `start` and `end` are
   * int64 products and sums, so they wrap around for huge pages, and the
   * slice `issues[start:end]` panics when the wrapped bounds are out of order.
   */
  function PaginateAsWritten<T>(all: seq<T>, req: PageRequest): (r: Result<Page<T>, SliceError>)
    ensures r.Ok? ==> |r.value.items| <= |all|
  {
    var page := EffectivePage(req.page);
    var limit := EffectiveLimit(req.limit);
    var start := Wrap64((page - 1) * limit);
    var end := Wrap64(start + limit);
    var total := |all|;
    if start >= total then Ok(Page([], 0))
    else
      var last := if end > total then total else end;
      if 0 <= start <= last then Ok(Page(all[start..last], total))
      else Err(SliceOutOfRange(start, last))
  }

  /** When the page's end fits in int64 the code as written computes the intended page. */
  lemma AsWrittenAgreesWithoutOverflow<T>(all: seq<T>, req: PageRequest)
    requires Offset(req) + EffectiveLimit(req.limit) <= MaxInt64
    ensures PaginateAsWritten(all, req) == Ok(Paginate(all, req))
  {
  }

  /** Page 2^61 + 1 at limit 8 has offset 2^64, which wraps to 0: the code
      serves page 1 again instead of an empty page. */
  lemma HugePageWrapsToFirstPage<T>(all: seq<T>)
    requires 0 < |all| <= MaxInt64
    ensures var req := PageRequest(0x2000_0000_0000_0001, 8);
      && Paginate(all, req).items == []
      && Paginate(all, PageRequest(1, 8)).items != []
      && PaginateAsWritten(all, req) == Ok(Paginate(all, PageRequest(1, 8)))
  {
    var req := PageRequest(0x2000_0000_0000_0001, 8);
    assert Offset(req) == TwoTo64;
    assert (TwoTo64 + TwoTo63) % TwoTo64 == TwoTo63;
    assert Wrap64(TwoTo64) == 0;
    assert Wrap64(0 + 8) == 8;
    var first := PageRequest(1, 8);
    assert Offset(first) == 0;
    var n := if 8 > |all| then |all| else 8;
    assert Paginate(all, first).items == all[0..n];
    assert PaginateAsWritten(all, req) == Ok(Page(all[0..n], |all|));
  }

  /** Page 2^62 + 1 at limit 2 has offset 2^63, which wraps to -2^63: the
      slice bounds are negative and the code panics instead of returning an empty page. */
  lemma HugePagePanics<T>(all: seq<T>)
    requires |all| <= MaxInt64
    ensures var req := PageRequest(0x4000_0000_0000_0001, 2);
      && Paginate(all, req) == Page([], 0)
      && PaginateAsWritten(all, req).Err?
  {
    var req := PageRequest(0x4000_0000_0000_0001, 2);
    assert Offset(req) == TwoTo63;
    assert (TwoTo63 + TwoTo63) % TwoTo64 == 0;
    assert Wrap64(TwoTo63) == MinInt64;
    assert Wrap64(MinInt64 + 2) == MinInt64 + 2;
  }
}

=== FILE: seqs.dfy ===
/** Order-preserving selection from a sequence, the shape of every
    `for ... { if cond { out = append(out, x) } }` loop in the core. */
module Seqs {

  function Filter<T(==,!new)>(s: seq<T>, keep: T -> bool): (r: seq<T>)
    ensures |r| <= |s|
    ensures forall k :: 0 <= k < |r| ==> keep(r[k])
  {
    if |s| == 0 then []
    else (if keep(s[0]) then [s[0]] else []) + Filter(s[1..], keep)
  }

  /** The selection holds every kept element as often as the input does, and nothing else. */
  lemma {:induction false} FilterContents<T(!new)>(s: seq<T>, keep: T -> bool)
    ensures forall x :: multiset(Filter(s, keep))[x] == if keep(x) then multiset(s)[x] else 0
    ensures forall x :: x in Filter(s, keep) <==> x in s && keep(x)
  {
    if |s| > 0 {
      FilterContents(s[1..], keep);
      assert s == [s[0]] + s[1..];
      assert multiset(s) == multiset{s[0]} + multiset(s[1..]);
    }
  }

  /** Selecting from a concatenation selects from each part, in order. */
  lemma {:induction false} FilterConcat<T(!new)>(a: seq<T>, b: seq<T>, keep: T -> bool)
    ensures Filter(a + b, keep) == Filter(a, keep) + Filter(b, keep)
  {
    if |a| == 0 {
      assert a + b == b;
    } else {
      var head := if keep(a[0]) then [a[0]] else [];
      assert (a + b)[0] == a[0];
      assert (a + b)[1..] == a[1..] + b;
      assert Filter(a + b, keep) == head + Filter(a[1..] + b, keep);
      FilterConcat(a[1..], b, keep);
      assert Filter(a, keep) == head + Filter(a[1..], keep);
    }
  }

  /** When everything is kept, nothing is lost and the order is unchanged. */
  lemma {:induction false} FilterAll<T(!new)>(s: seq<T>, keep: T -> bool)
    requires forall k :: 0 <= k < |s| ==> keep(s[k])
    ensures Filter(s, keep) == s
  {
    if |s| > 0 {
      FilterAll(s[1..], keep);
    }
  }

  /** A property every input element has, every selected element has. */
  lemma {:induction false} FilterKeeps<T(!new)>(s: seq<T>, keep: T -> bool, p: T -> bool)
    requires forall k :: 0 <= k < |s| ==> p(s[k])
    ensures forall k :: 0 <= k < |Filter(s, keep)| ==> p(Filter(s, keep)[k])
  {
    if |s| > 0 {
      FilterKeeps(s[1..], keep, p);
      var head := if keep(s[0]) then [s[0]] else [];
      assert Filter(s, keep) == head + Filter(s[1..], keep);
    }
  }

  /** The positions from `from` on whose element is kept: increasing, and every such kept position is listed. */
  function KeptPositions<T>(s: seq<T>, keep: T -> bool, from: nat): (idx: seq<nat>)
    requires from <= |s|
    ensures forall k :: 0 <= k < |idx| ==> from <= idx[k] < |s| && keep(s[idx[k]])
    ensures forall k, l :: 0 <= k < l < |idx| ==> idx[k] < idx[l]
    ensures forall p :: from <= p < |s| && keep(s[p]) ==> p in idx
    decreases |s| - from
  {
    if from == |s| then []
    else (if keep(s[from]) then [from] else []) + KeptPositions(s, keep, from + 1)
  }

  /** `r` lists the elements of `s` at the positions `idx`, in that order. */
  ghost predicate AtPositions<T>(r: seq<T>, s: seq<T>, idx: seq<nat>) {
    |r| == |idx| && forall k :: 0 <= k < |idx| ==> idx[k] < |s| && r[k] == s[idx[k]]
  }

  /** Putting one more position in front keeps the listing. */
  lemma ConsAtPositions<T>(r: seq<T>, s: seq<T>, idx: seq<nat>, p: nat)
    requires AtPositions(r, s, idx) && p < |s|
    ensures AtPositions([s[p]] + r, s, [p] + idx)
  {
  }

  /** The selection from `from` on lists exactly the elements at the kept positions, in that order. */
  lemma {:induction false} FilterAtPositions<T(!new)>(s: seq<T>, keep: T -> bool, from: nat)
    requires from <= |s|
    ensures AtPositions(Filter(s[from..], keep), s, KeptPositions(s, keep, from))
    decreases |s| - from
  {
    if from < |s| {
      FilterAtPositions(s, keep, from + 1);
      var t := s[from..];
      assert t[0] == s[from] && t[1..] == s[from + 1..];
      var rest := Filter(s[from + 1..], keep);
      var idx := KeptPositions(s, keep, from + 1);
      if keep(s[from]) {
        assert Filter(t, keep) == [s[from]] + rest;
        assert KeptPositions(s, keep, from) == [from] + idx;
        ConsAtPositions(rest, s, idx, from);
      } else {
        assert Filter(t, keep) == rest;
        assert KeptPositions(s, keep, from) == idx;
      }
    }
  }

  /** The whole selection lists the elements at the kept positions of the whole input, in order. */
  lemma SelectionFollowsPositions<T(!new)>(s: seq<T>, keep: T -> bool)
    ensures AtPositions(Filter(s, keep), s, KeptPositions(s, keep, 0))
  {
    FilterAtPositions(s, keep, 0);
    assert s[0..] == s;
  }
}

=== FILE: sorting.dfy ===
/**
 * sortTransactions: the in-place exchange sort the issue query runs on one
 * of five keys, ascending unless the direction is DESC in any case.
 */
module IssueSort {
  import opened Wrappers
  import opened Text
  import opened Numeric
  import opened Domain

  /** The keys the sort understands, by their lower-case names. */
  datatype SortField = ByTimestamp | ByName | ByAmount | ByType | ByStatus {
    function Name(): string {
      match this
      case ByTimestamp => "timestamp"
      case ByName => "name"
      case ByAmount => "amount"
      case ByType => "type"
      case ByStatus => "status"
    }
  }

  /** "invalid sortBy field: %s" */
  datatype SortError = InvalidSortField(sortBy: string)

  /** The switch on strings.ToLower(sortBy): the field whose name matches in any case. */
  function ParseSortField(sortBy: string): (r: Option<SortField>)
    ensures r.Some? ==> EqualFold(sortBy, r.value.Name())
    ensures r.None? ==> forall f: SortField :: !EqualFold(sortBy, f.Name())
  {
    ToLowerMatches(sortBy, "timestamp");
    ToLowerMatches(sortBy, "name");
    ToLowerMatches(sortBy, "amount");
    ToLowerMatches(sortBy, "type");
    ToLowerMatches(sortBy, "status");
    var key := ToLower(sortBy);
    if key == "timestamp" then Some(ByTimestamp)
    else if key == "name" then Some(ByName)
    else if key == "amount" then Some(ByAmount)
    else if key == "type" then Some(ByType)
    else if key == "status" then Some(ByStatus)
    else None
  }

  /** Any direction other than DESC, in any case, sorts ascending. */
  function IsAscending(direction: string): (r: bool)
    ensures r <==> !EqualFold(direction, "DESC")
  {
    ToUpperMatches(direction, "DESC");
    ToUpper(direction) != "DESC"
  }

  /** Seconds from 1 January of year 1 to the Unix epoch. */
  const UnixToInternal: int := 62135596800

  /**
   * The int64 that time.Unix(sec, 0) keeps and Before/After compare: the
   * second counted from year 1, wrapping around once it passes MaxInt64.
   * Unix() subtracts the same shift, so the stored second itself survives.
   */
  function TimeKey(sec: Int64): (r: Int64)
    ensures sec <= MaxInt64 - UnixToInternal ==> r == sec + UnixToInternal
    ensures sec > MaxInt64 - UnixToInternal ==> r == sec + UnixToInternal - TwoTo64
  {
    Wrap64(sec + UnixToInternal)
  }

  /** The key of x is strictly smaller than the key of y: `<` on the times'
      int64 keys, and Go's byte-wise `<` on strings. */
  predicate KeyLess(f: SortField, x: Transaction, y: Transaction) {
    match f
    case ByTimestamp => TimeKey(x.timestamp) < TimeKey(y.timestamp)
    case ByName => StrLess(x.name, y.name)
    case ByAmount => x.amount < y.amount
    case ByType => StrLess(x.txType, y.txType)
    case ByStatus => StrLess(x.status, y.status)
  }

  /** The key of x is at most the key of y. */
  predicate KeyAtMost(f: SortField, x: Transaction, y: Transaction) {
    match f
    case ByTimestamp => TimeKey(x.timestamp) <= TimeKey(y.timestamp)
    case ByName => x.name == y.name || StrLess(x.name, y.name)
    case ByAmount => x.amount <= y.amount
    case ByType => x.txType == y.txType || StrLess(x.txType, y.txType)
    case ByStatus => x.status == y.status || StrLess(x.status, y.status)
  }

  /** x belongs strictly before y in the requested direction; the inner loop
      swaps positions i and j exactly when Before(s[j], s[i]). */
  predicate Before(f: SortField, ascending: bool, x: Transaction, y: Transaction) {
    if ascending then KeyLess(f, x, y) else KeyLess(f, y, x)
  }

  /** x may precede y in the requested direction. */
  predicate InOrder(f: SortField, ascending: bool, x: Transaction, y: Transaction) {
    if ascending then KeyAtMost(f, x, y) else KeyAtMost(f, y, x)
  }

  /** Non-decreasing (ascending) or non-increasing (descending) by the key. */
  predicate SortedBy(f: SortField, ascending: bool, s: seq<Transaction>) {
    forall k, l :: 0 <= k < l < |s| ==> InOrder(f, ascending, s[k], s[l])
  }

  /** Before is a strict order. */
  lemma BeforeIsStrict(f: SortField, ascending: bool, x: Transaction, y: Transaction, z: Transaction)
    ensures !Before(f, ascending, x, x)
    ensures Before(f, ascending, x, y) ==> !Before(f, ascending, y, x)
    ensures Before(f, ascending, x, y) && Before(f, ascending, y, z) ==> Before(f, ascending, x, z)
  {
    match f
    case ByTimestamp =>
    case ByAmount =>
    case ByName => StrictOnKeys(x.name, y.name, z.name);
    case ByType => StrictOnKeys(x.txType, y.txType, z.txType);
    case ByStatus => StrictOnKeys(x.status, y.status, z.status);
  }

  lemma StrictOnKeys(a: string, b: string, c: string)
    ensures !StrLess(a, a)
    ensures StrLess(a, b) ==> !StrLess(b, a)
    ensures StrLess(b, a) ==> !StrLess(a, b)
    ensures StrLess(a, b) && StrLess(b, c) ==> StrLess(a, c)
    ensures StrLess(c, b) && StrLess(b, a) ==> StrLess(c, a)
  {
    StrLessIrreflexive(a);
    if StrLess(a, b) {
      StrLessAsymmetric(a, b);
      if StrLess(b, c) {
        StrLessTransitive(a, b, c);
      }
    }
    if StrLess(b, a) {
      StrLessAsymmetric(b, a);
      if StrLess(c, b) {
        StrLessTransitive(c, b, a);
      }
    }
  }

  /** Not placing y before x is the same as x being allowed before y. */
  lemma NotBeforeIsInOrder(f: SortField, ascending: bool, x: Transaction, y: Transaction)
    ensures !Before(f, ascending, y, x) <==> InOrder(f, ascending, x, y)
  {
    match f
    case ByTimestamp =>
    case ByAmount =>
    case ByName => TotalOnKeys(x.name, y.name);
    case ByType => TotalOnKeys(x.txType, y.txType);
    case ByStatus => TotalOnKeys(x.status, y.status);
  }

  lemma TotalOnKeys(a: string, b: string)
    ensures !StrLess(b, a) <==> a == b || StrLess(a, b)
    ensures !StrLess(a, b) <==> b == a || StrLess(b, a)
  {
    StrLessTotal(a, b);
    StrLessIrreflexive(a);
    if StrLess(a, b) {
      StrLessAsymmetric(a, b);
    }
    if StrLess(b, a) {
      StrLessAsymmetric(b, a);
    }
  }

  /** The comparison the loops use: x belongs strictly before y. */
  function Order(f: SortField, ascending: bool): (Transaction, Transaction) -> bool {
    (x: Transaction, y: Transaction) => Before(f, ascending, x, y)
  }

  /** An irreflexive, transitive relation. */
  ghost predicate StrictOrder(before: (Transaction, Transaction) -> bool) {
    && (forall x :: !before(x, x))
    && (forall x, y, z :: before(x, y) && before(y, z) ==> before(x, z))
  }

  lemma OrderIsStrict(f: SortField, ascending: bool)
    ensures StrictOrder(Order(f, ascending))
  {
    var before := Order(f, ascending);
    forall x ensures !before(x, x) {
      BeforeIsStrict(f, ascending, x, x, x);
    }
    forall x, y, z | before(x, y) && before(y, z)
      ensures before(x, z)
    {
      BeforeIsStrict(f, ascending, x, y, z);
    }
  }

  /** Exchange the elements at positions i and j. */
  function Swap(s: seq<Transaction>, i: nat, j: nat): (r: seq<Transaction>)
    requires i < |s| && j < |s|
    ensures |r| == |s| && multiset(r) == multiset(s)
    ensures r[i] == s[j] && r[j] == s[i]
    ensures forall k :: 0 <= k < |s| && k != i && k != j ==> r[k] == s[k]
  {
    s[i := s[j]][j := s[i]]
  }

  /** The inner loop for position i, from j to the end: swap whenever the
      element at j belongs before the one at i. */
  function InnerPass(s: seq<Transaction>, before: (Transaction, Transaction) -> bool, i: nat, j: nat): (r: seq<Transaction>)
    requires i < j <= |s|
    decreases |s| - j
    ensures |r| == |s| && multiset(r) == multiset(s)
    ensures r[..i] == s[..i]
  {
    if j == |s| then s
    else
      var next := if before(s[j], s[i]) then Swap(s, i, j) else s;
      assert next[..i] == s[..i];
      InnerPass(next, before, i, j + 1)
  }

  /** The outer loop, from position i on. */
  function OuterPass(s: seq<Transaction>, before: (Transaction, Transaction) -> bool, i: nat): (r: seq<Transaction>)
    requires i <= |s|
    decreases |s| - i
    ensures |r| == |s| && multiset(r) == multiset(s)
  {
    if i + 1 >= |s| then s
    else OuterPass(InnerPass(s, before, i, i + 1), before, i + 1)
  }

  /** Both loops from the start: the whole exchange sort. */
  function ExchangeSort(s: seq<Transaction>, f: SortField, ascending: bool): seq<Transaction> {
    OuterPass(s, Order(f, ascending), 0)
  }

  /** No element at a position in (i, hi) belongs before the one at position i. */
  predicate PlacedAt(s: seq<Transaction>, before: (Transaction, Transaction) -> bool, i: nat, hi: nat)
    requires i < hi <= |s|
  {
    forall l :: i < l < hi ==> !before(s[l], s[i])
  }

  /** Swapping in an element that belongs before the current one keeps position i placed. */
  lemma SwapKeepsPlaced(s: seq<Transaction>, before: (Transaction, Transaction) -> bool, i: nat, j: nat)
    requires StrictOrder(before)
    requires i < j < |s|
    requires PlacedAt(s, before, i, j) && before(s[j], s[i])
    ensures PlacedAt(Swap(s, i, j), before, i, j + 1)
  {
    var next := Swap(s, i, j);
    forall k | i < k < j + 1
      ensures !before(next[k], next[i])
    {
      if k < j {
        assert !before(s[k], s[i]);
      } else {
        assert !before(s[i], s[i]);
      }
    }
  }

  /** The inner loop leaves at position i an element no later one belongs before. */
  lemma {:induction false} InnerPassPlacesFirst(s: seq<Transaction>, before: (Transaction, Transaction) -> bool, i: nat, j: nat)
    requires StrictOrder(before)
    requires i < j <= |s|
    requires PlacedAt(s, before, i, j)
    decreases |s| - j
    ensures PlacedAt(InnerPass(s, before, i, j), before, i, |s|)
  {
    if j < |s| {
      if before(s[j], s[i]) {
        SwapKeepsPlaced(s, before, i, j);
        InnerPassPlacesFirst(Swap(s, i, j), before, i, j + 1);
      } else {
        InnerPassPlacesFirst(s, before, i, j + 1);
      }
    }
  }

  /** Positions before i each hold an element no later one belongs before. */
  predicate PrefixPlaced(s: seq<Transaction>, before: (Transaction, Transaction) -> bool, i: nat)
    requires i <= |s|
  {
    forall k, l :: 0 <= k < i && k < l < |s| ==> !before(s[l], s[k])
  }

  /** A permutation that keeps the first i elements only moves elements
      within the rest: each later element of r comes from a later position of s. */
  lemma FromTail(s: seq<Transaction>, r: seq<Transaction>, i: nat, l: nat) returns (m: nat)
    requires |r| == |s| && i <= l < |r|
    requires r[..i] == s[..i] && multiset(r) == multiset(s)
    ensures i <= m < |s| && s[m] == r[l]
  {
    assert s == s[..i] + s[i..];
    assert r == r[..i] + r[i..];
    assert multiset(s) == multiset(s[..i]) + multiset(s[i..]);
    assert multiset(r) == multiset(r[..i]) + multiset(r[i..]);
    forall x
      ensures multiset(r[i..])[x] == multiset(s[i..])[x]
    {
      assert multiset(r)[x] == multiset(r[..i])[x] + multiset(r[i..])[x];
      assert multiset(s)[x] == multiset(s[..i])[x] + multiset(s[i..])[x];
    }
    assert multiset(r[i..]) == multiset(s[i..]);
    assert r[l] == r[i..][l - i];
    assert r[l] in multiset(s[i..]);
    var n :| 0 <= n < |s[i..]| && s[i..][n] == r[l];
    m := i + n;
  }

  /** The outer loop extends the placed prefix to the whole sequence. */
  lemma {:induction false} OuterPassPlaces(s: seq<Transaction>, before: (Transaction, Transaction) -> bool, i: nat)
    requires StrictOrder(before)
    requires i <= |s|
    requires PrefixPlaced(s, before, i)
    decreases |s| - i
    ensures PrefixPlaced(OuterPass(s, before, i), before, |s|)
  {
    if i + 1 < |s| {
      var r := InnerPass(s, before, i, i + 1);
      InnerPassPlacesFirst(s, before, i, i + 1);
      ExtendPrefix(s, r, before, i);
      OuterPassPlaces(r, before, i + 1);
    }
  }

  /** One inner pass grows the placed prefix by one position. */
  lemma ExtendPrefix(s: seq<Transaction>, r: seq<Transaction>, before: (Transaction, Transaction) -> bool, i: nat)
    requires i < |s| && |r| == |s|
    requires r[..i] == s[..i] && multiset(r) == multiset(s)
    requires PrefixPlaced(s, before, i)
    requires PlacedAt(r, before, i, |r|)
    ensures PrefixPlaced(r, before, i + 1)
  {
    forall k, l | 0 <= k < i + 1 && k < l < |r|
      ensures !before(r[l], r[k])
    {
      if k < i {
        assert r[k] == s[..i][k] == s[k];
        if l < i {
          assert r[l] == s[..i][l] == s[l];
        } else {
          var m := FromTail(s, r, i, l);
        }
      }
    }
  }

  /** The exchange sort returns a permutation of its input, ordered by the key. */
  lemma ExchangeSortCorrect(s: seq<Transaction>, f: SortField, ascending: bool)
    ensures multiset(ExchangeSort(s, f, ascending)) == multiset(s)
    ensures SortedBy(f, ascending, ExchangeSort(s, f, ascending))
  {
    OrderIsStrict(f, ascending);
    OuterPassPlaces(s, Order(f, ascending), 0);
    var r := ExchangeSort(s, f, ascending);
    forall k, l | 0 <= k < l < |r|
      ensures InOrder(f, ascending, r[k], r[l])
    {
      assert !Order(f, ascending)(r[l], r[k]);
      NotBeforeIsInOrder(f, ascending, r[k], r[l]);
    }
  }

  /**
   * sortTransactions: with fewer than two elements no pair is compared, so
   * the field is never examined; otherwise an unknown field is an error and
   * a known one yields the exchange-sorted sequence.
   */
  function SortTransactions(s: seq<Transaction>, direction: string, sortBy: string): (r: Result<seq<Transaction>, SortError>)
    ensures r.Err? <==> |s| >= 2 && forall f: SortField :: !EqualFold(sortBy, f.Name())
    ensures r.Err? ==> r.error == InvalidSortField(sortBy)
    ensures |s| < 2 ==> r == Ok(s)
    ensures r.Ok? ==> multiset(r.value) == multiset(s)
    ensures r.Ok? ==> forall f: SortField :: EqualFold(sortBy, f.Name()) ==>
      SortedBy(f, !EqualFold(direction, "DESC"), r.value)
  {
    if |s| < 2 then Ok(s)
    else match ParseSortField(sortBy)
      case None => Err(InvalidSortField(sortBy))
      case Some(f) =>
        ExchangeSortCorrect(s, f, IsAscending(direction));
        FieldNamesDistinct(sortBy, f);
        Ok(ExchangeSort(s, f, IsAscending(direction)))
  }

  /** A string names at most one field. */
  lemma FieldNamesDistinct(sortBy: string, f: SortField)
    requires EqualFold(sortBy, f.Name())
    ensures forall g: SortField :: EqualFold(sortBy, g.Name()) ==> g == f
  {
    forall g: SortField | EqualFold(sortBy, g.Name())
      ensures g == f
    {
      ToLowerMatches(sortBy, f.Name());
      ToLowerMatches(sortBy, g.Name());
    }
  }

  /** The sort is not stable: two equal keys can change their relative order. */
  lemma ExchangeSortIsNotStable()
    ensures var a := Transaction(1, "a", "DEBIT", 1, "FAILED", "d", "u");
            var b := Transaction(2, "b", "DEBIT", 1, "FAILED", "d", "u");
            var c := Transaction(3, "c", "DEBIT", 0, "FAILED", "d", "u");
            ExchangeSort([a, b, c], ByAmount, true) == [c, b, a]
  {
    var a := Transaction(1, "a", "DEBIT", 1, "FAILED", "d", "u");
    var b := Transaction(2, "b", "DEBIT", 1, "FAILED", "d", "u");
    var c := Transaction(3, "c", "DEBIT", 0, "FAILED", "d", "u");
    var s := [a, b, c];
    var t := [c, b, a];
    var before := Order(ByAmount, true);
    assert Swap(s, 0, 2) == t;
    assert InnerPass(t, before, 0, 3) == t;
    assert InnerPass(s, before, 0, 2) == t;
    assert InnerPass(s, before, 0, 1) == t;
    assert InnerPass(t, before, 1, 3) == t;
    assert InnerPass(t, before, 1, 2) == t;
    assert OuterPass(t, before, 2) == t;
    assert OuterPass(t, before, 1) == t;
  }

  /**
   * Two seconds on the same side of the wrap point compare as numbers; a
   * second past it compares below every second before it.
   */
  lemma TimeKeyOrder(a: Int64, b: Int64)
    ensures (a <= MaxInt64 - UnixToInternal) == (b <= MaxInt64 - UnixToInternal) ==>
      (TimeKey(a) < TimeKey(b) <==> a < b)
    ensures a <= MaxInt64 - UnixToInternal < b ==> TimeKey(b) < TimeKey(a)
  {
  }

  /** The latest int64 second wraps its shifted key and so sorts before second 1, ascending. */
  lemma LatestSecondSortsFirst()
    ensures var early := Transaction(1, "a", "DEBIT", 1, "FAILED", "d", "u");
            var late := Transaction(MaxInt64, "b", "DEBIT", 1, "FAILED", "d", "u");
            SortTransactions([early, late], "ASC", "timestamp") == Ok([late, early])
  {
    var early := Transaction(1, "a", "DEBIT", 1, "FAILED", "d", "u");
    var late := Transaction(MaxInt64, "b", "DEBIT", 1, "FAILED", "d", "u");
    var s := [early, late];
    var t := [late, early];
    var before := Order(ByTimestamp, true);
    assert TimeKey(late.timestamp) < TimeKey(early.timestamp);
    assert IsAscending("ASC") by {
      assert ToUpper("ASC") != "DESC";
    }
    assert ParseSortField("timestamp") == Some(ByTimestamp);
    assert Swap(s, 0, 1) == t;
    assert InnerPass(t, before, 0, 2) == t;
    assert InnerPass(s, before, 0, 1) == t;
    assert InnerPass(t, before, 1, 2) == t;
    assert OuterPass(t, before, 1) == t;
  }
}

=== FILE: store.dfy ===
/**
 * The in-memory transaction repository: an append-only sequence with an
 * all-or-nothing batch insert. Each operation is one atomic transition, as
 * the repository's lock makes it.
 */
module TransactionStore {
  import opened Wrappers
  import opened Text
  import opened Numeric
  import opened Seqs
  import opened Domain
  import opened Validation

  datatype Store = Store(transactions: seq<Transaction>)

  /** NewTransactionRepository: no transactions yet. */
  function NewStore(): Store {
    Store([])
  }

  /** The six text fields SaveAll rebuilds from a transaction before validating it. */
  function AsRecord(tx: Transaction): seq<string> {
    [FormatInt(tx.timestamp), tx.name, tx.txType, FormatInt(tx.amount), tx.status, tx.description]
  }

  /** The record rules, read on a transaction's fields. */
  predicate Acceptable(tx: Transaction) {
    && tx.timestamp > 0
    && tx.amount >= 0
    && !IsBlank(tx.name)
    && !IsBlank(tx.description)
    && NamesType(TrimSpace(tx.txType))
    && NamesStatus(TrimSpace(tx.status))
  }

  /** The validator passes a transaction's rebuilt record exactly when the
      transaction is acceptable: rebuilding loses nothing the rules look at. */
  lemma ValidatesIff(tx: Transaction)
    ensures ValidateRecord(AsRecord(tx)).Pass? <==> Acceptable(tx)
  {
    var rec := AsRecord(tx);
    RecordNoneBlank(tx);
    RecordTimestamp(tx);
    RecordAmount(tx);
    assert TypeNamed(rec) <==> NamesType(TrimSpace(tx.txType));
    assert StatusNamed(rec) <==> NamesStatus(TrimSpace(tx.status));
  }

  /** Only the text fields of a rebuilt record can be blank, and a named
      type or status is never blank. */
  lemma RecordNoneBlank(tx: Transaction)
    ensures NoneBlank(AsRecord(tx)) <==>
      !IsBlank(tx.name) && !IsBlank(tx.txType) && !IsBlank(tx.status) && !IsBlank(tx.description)
    ensures NamesType(TrimSpace(tx.txType)) ==> !IsBlank(tx.txType)
    ensures NamesStatus(TrimSpace(tx.status)) ==> !IsBlank(tx.status)
  {
    var rec := AsRecord(tx);
    FormatIntIsTrimmed(tx.timestamp);
    FormatIntIsTrimmed(tx.amount);
    NoneBlankOfSix(rec);
    assert rec[1] == tx.name && rec[2] == tx.txType && rec[4] == tx.status && rec[5] == tx.description;
    assert !IsBlank(rec[0]) && !IsBlank(rec[3]);
    if NamesType(TrimSpace(tx.txType)) {
      assert TrimSpace(tx.txType) != "";
    }
    if NamesStatus(TrimSpace(tx.status)) {
      assert TrimSpace(tx.status) != "";
    }
  }

  /** The printed timestamp parses back to itself. */
  lemma RecordTimestamp(tx: Transaction)
    ensures TimestampPositive(AsRecord(tx)) <==> tx.timestamp > 0
  {
    FormatIntIsTrimmed(tx.timestamp);
    ParseFormatRoundTrip(tx.timestamp);
    assert AsRecord(tx)[0] == FormatInt(tx.timestamp);
  }

  /** The printed amount parses back to itself. */
  lemma RecordAmount(tx: Transaction)
    ensures AmountNonNegative(AsRecord(tx)) <==> tx.amount >= 0
  {
    FormatIntIsTrimmed(tx.amount);
    ParseFormatRoundTrip(tx.amount);
    assert AsRecord(tx)[3] == FormatInt(tx.amount);
  }

  /** The batch error: the 0-based index of the first rejected record and why ("line %d: %v"). */
  datatype SaveError = SaveError(index: nat, cause: ValidationError)

  /** Every transaction at a position in [lo, hi) is acceptable. */
  predicate AcceptableBetween(txs: seq<Transaction>, lo: nat, hi: nat)
    requires lo <= hi <= |txs|
  {
    forall k :: lo <= k < hi ==> Acceptable(txs[k])
  }

  lemma AcceptableBetweenStep(txs: seq<Transaction>, lo: nat, hi: nat)
    requires lo < hi <= |txs|
    ensures AcceptableBetween(txs, lo, hi) <==> Acceptable(txs[lo]) && AcceptableBetween(txs, lo + 1, hi)
  {
    if Acceptable(txs[lo]) && AcceptableBetween(txs, lo + 1, hi) {
      forall k | lo <= k < hi
        ensures Acceptable(txs[k])
      {
        if k > lo {
          assert lo + 1 <= k < hi;
        }
      }
    }
  }

  predicate AllAcceptable(txs: seq<Transaction>) {
    AcceptableBetween(txs, 0, |txs|)
  }

  /** The validation loop of SaveAll from position `from` on. */
  function FirstRejected(txs: seq<Transaction>, from: nat): (r: Option<SaveError>)
    requires from <= |txs|
    decreases |txs| - from
    ensures r.None? <==> AcceptableBetween(txs, from, |txs|)
    ensures r.Some? ==>
      && from <= r.value.index < |txs|
      && !Acceptable(txs[r.value.index])
      && AcceptableBetween(txs, from, r.value.index)
    ensures r.Some? ==> ValidateRecord(AsRecord(txs[r.value.index])) == Fail(r.value.cause)
  {
    if from == |txs| then None
    else
      ValidatesIff(txs[from]);
      match ValidateRecord(AsRecord(txs[from]))
      case Fail(e) =>
        AcceptableBetweenStep(txs, from, |txs|);
        Some(SaveError(from, e))
      case Pass =>
        var rest := FirstRejected(txs, from + 1);
        AcceptableBetweenStep(txs, from, if rest.Some? then rest.value.index else |txs|);
        rest
  }

  /** The store after a call, and what the call returned. */
  datatype Saved = Saved(store: Store, outcome: Outcome<SaveError>)

  /**
   * SaveAll: validate every record first; on the first failure return its
   * index and leave the store as it was, otherwise append the whole batch.
   */
  function SaveAll(st: Store, txs: seq<Transaction>): (r: Saved)
    ensures r.outcome.Pass? <==> AllAcceptable(txs)
    ensures r.outcome.Pass? ==> r.store.transactions == st.transactions + txs
    ensures r.outcome.Fail? ==> r.store == st
    ensures r.outcome.Fail? ==>
      var e := r.outcome.error;
      && e.index < |txs|
      && !Acceptable(txs[e.index])
      && AcceptableBetween(txs, 0, e.index)
      && ValidateRecord(AsRecord(txs[e.index])) == Fail(e.cause)
  {
    match FirstRejected(txs, 0)
    case Some(e) => Saved(st, Fail(e))
    case None => Saved(Store(st.transactions + txs), Pass)
  }

  /** GetAll: every stored transaction, in insertion order. */
  function GetAll(st: Store): seq<Transaction> {
    st.transactions
  }

  /**
   * What GetAll lists after SaveAll: the earlier transactions followed by
   * the batch when every record in it is acceptable, the earlier
   * transactions alone otherwise.
   */
  lemma GetAllAfterSaveAll(st: Store, txs: seq<Transaction>)
    ensures GetAll(SaveAll(st, txs).store) == if AllAcceptable(txs) then GetAll(st) + txs else GetAll(st)
  {
  }

  /**
   * GetAllByUserID: the user's transactions, each as often as stored, in
   * store order: the k-th result is the transaction at the k-th stored
   * position that belongs to the user.
   */
  function GetAllByUserID(st: Store, userID: string): (r: seq<Transaction>)
    ensures forall k :: 0 <= k < |r| ==> r[k].userID == userID
    ensures forall t :: multiset(r)[t] == if t.userID == userID then multiset(GetAll(st))[t] else 0
    ensures AtPositions(r, GetAll(st), KeptPositions(GetAll(st), OwnedBy(userID), 0))
  {
    FilterContents(st.transactions, OwnedBy(userID));
    SelectionFollowsPositions(st.transactions, OwnedBy(userID));
    Filter(st.transactions, OwnedBy(userID))
  }

  /** Clear: the store is emptied. */
  function Clear(st: Store): (r: Store)
    ensures GetAll(r) == []
  {
    NewStore()
  }

  /** Every stored transaction satisfies the record rules. */
  predicate Consistent(st: Store) {
    AllAcceptable(st.transactions)
  }

  lemma AllAcceptableConcat(a: seq<Transaction>, b: seq<Transaction>)
    requires AllAcceptable(a) && AllAcceptable(b)
    ensures AllAcceptable(a + b)
  {
    forall k | 0 <= k < |a + b|
      ensures Acceptable((a + b)[k])
    {
      if k < |a| {
        assert (a + b)[k] == a[k];
      } else {
        assert (a + b)[k] == b[k - |a|];
      }
    }
  }

  /** The store never holds a record the validator would refuse. */
  lemma SaveAllKeepsConsistent(st: Store, txs: seq<Transaction>)
    requires Consistent(st)
    ensures Consistent(SaveAll(st, txs).store)
  {
    var r := SaveAll(st, txs);
    if r.outcome.Pass? {
      AllAcceptableConcat(st.transactions, txs);
    }
  }

  /** After a successful batch, a user's view is the old view followed by
      the user's records of the batch, in batch order. */
  lemma SaveAllThenByUser(st: Store, txs: seq<Transaction>, userID: string)
    requires SaveAll(st, txs).outcome.Pass?
    ensures GetAllByUserID(SaveAll(st, txs).store, userID)
         == GetAllByUserID(st, userID) + Filter(txs, OwnedBy(userID))
  {
    FilterConcat(st.transactions, txs, OwnedBy(userID));
  }

  /** Saving a batch that all belongs to one user grows that user's view by
      the batch and leaves every other user's view alone. */
  lemma SaveAllOwnBatch(st: Store, txs: seq<Transaction>, userID: string, other: string)
    requires SaveAll(st, txs).outcome.Pass?
    requires forall k :: 0 <= k < |txs| ==> txs[k].userID == userID
    ensures GetAllByUserID(SaveAll(st, txs).store, userID) == GetAllByUserID(st, userID) + txs
    ensures other != userID ==> GetAllByUserID(SaveAll(st, txs).store, other) == GetAllByUserID(st, other)
  {
    SaveAllThenByUser(st, txs, userID);
    SaveAllThenByUser(st, txs, other);
    FilterAll(txs, OwnedBy(userID));
    if other != userID {
      var theirs := Filter(txs, OwnedBy(other));
      FilterKeeps(txs, OwnedBy(other), OwnedBy(userID));
      assert theirs == [];
    }
  }

  /** An empty store holds nothing for anyone and is trivially consistent. */
  lemma ClearEmptiesEveryView(st: Store, userID: string)
    ensures GetAllByUserID(Clear(st), userID) == []
    ensures Consistent(Clear(st))
  {
  }
}

=== FILE: text.dfy ===
/**
 * The string helpers the core calls from Go's `strings` package:
 * TrimSpace, ToUpper, ToLower, and the byte-wise ordering of `<` / `>`
 * on strings.
 */
module Text {

  /** Go's unicode.IsSpace: the ASCII white space plus NEL, NBSP and the
      Unicode space separators. */
  predicate IsSpace(c: char) {
    var n := c as int;
    if n < 0x80 then n == 0x20 || 0x09 <= n <= 0x0D
    else
      || n == 0x85 || n == 0xA0 || n == 0x1680 || 0x2000 <= n <= 0x200A
      || n == 0x2028 || n == 0x2029 || n == 0x202F || n == 0x205F || n == 0x3000
  }

  /** A string that is empty once white space is trimmed. */
  predicate IsBlank(s: string) {
    forall k :: 0 <= k < |s| ==> IsSpace(s[k])
  }

  /** Drop leading white space. */
  function TrimLeft(s: string): string {
    if |s| > 0 && IsSpace(s[0]) then TrimLeft(s[1..]) else s
  }

  /** Drop trailing white space. */
  function TrimRight(s: string): string {
    if |s| > 0 && IsSpace(s[|s| - 1]) then TrimRight(s[..|s| - 1]) else s
  }

  /** TrimLeft keeps a suffix, drops only white space, and stops at the first other character. */
  lemma {:induction false} TrimLeftShape(s: string)
    ensures var r := TrimLeft(s);
      && |r| <= |s| && r == s[|s| - |r|..]
      && (forall k :: 0 <= k < |s| - |r| ==> IsSpace(s[k]))
      && (|r| > 0 ==> !IsSpace(r[0]))
  {
    if |s| > 0 && IsSpace(s[0]) {
      var t := s[1..];
      TrimLeftShape(t);
      var r := TrimLeft(s);
      assert r == TrimLeft(t);
      assert r == s[|s| - |r|..] by {
        assert t[|t| - |r|..] == s[|s| - |r|..];
      }
      forall k | 0 <= k < |s| - |r|
        ensures IsSpace(s[k])
      {
        if k > 0 {
          assert s[k] == t[k - 1];
        }
      }
    }
  }

  /** TrimRight keeps a prefix, drops only white space, and stops at the last other character. */
  lemma {:induction false} TrimRightShape(s: string)
    ensures var r := TrimRight(s);
      && |r| <= |s| && r == s[..|r|]
      && (forall k :: |r| <= k < |s| ==> IsSpace(s[k]))
      && (|r| > 0 ==> !IsSpace(r[|r| - 1]))
  {
    if |s| > 0 && IsSpace(s[|s| - 1]) {
      var p := s[..|s| - 1];
      TrimRightShape(p);
      var r := TrimRight(s);
      forall k | |r| <= k < |s|
        ensures IsSpace(s[k])
      {
        if k < |s| - 1 {
          assert s[k] == p[k];
        }
      }
    }
  }

  /** strings.TrimSpace: drop leading and trailing white space. */
  function TrimSpace(s: string): (r: string)
    ensures |r| <= |s|
    ensures r == "" <==> IsBlank(s)
    ensures |r| > 0 ==> !IsSpace(r[0]) && !IsSpace(r[|r| - 1])
    ensures |s| > 0 && !IsSpace(s[0]) && !IsSpace(s[|s| - 1]) ==> r == s
    ensures exists i, j :: 0 <= i <= j <= |s| && r == s[i..j] && SpaceOutside(s, i, j)
  {
    TrimBothEnds(s);
    TrimIsPiece(s);
    TrimRight(TrimLeft(s))
  }

  /** Everything of `s` before `i` and from `j` on is white space. */
  predicate SpaceOutside(s: string, i: nat, j: nat)
    requires i <= j <= |s|
  {
    (forall k :: 0 <= k < i ==> IsSpace(s[k])) && (forall k :: j <= k < |s| ==> IsSpace(s[k]))
  }

  /** Trimming keeps one contiguous piece of the field and drops only white space around it. */
  lemma TrimIsPiece(s: string)
    ensures var r := TrimRight(TrimLeft(s));
      exists i, j :: 0 <= i <= j <= |s| && r == s[i..j] && SpaceOutside(s, i, j)
  {
    var left := TrimLeft(s);
    var r := TrimRight(left);
    var i := |s| - |left|;
    assert left == s[i..] && SpaceOutside(s, i, |s|) by {
      TrimLeftShape(s);
    }
    assert r == left[..|r|] && SpaceOutside(left, 0, |r|) by {
      TrimRightShape(left);
    }
    PieceOfPiece(s, i, left, r);
  }

  /** A trimmed piece of a trimmed suffix is a trimmed piece of the whole. */
  lemma PieceOfPiece(s: string, i: nat, left: string, r: string)
    requires i <= |s| && left == s[i..] && SpaceOutside(s, i, |s|)
    requires |r| <= |left| && r == left[..|r|] && SpaceOutside(left, 0, |r|)
    ensures r == s[i..i + |r|] && SpaceOutside(s, i, i + |r|)
  {
    forall k | i + |r| <= k < |s| ensures IsSpace(s[k]) {
      assert s[k] == left[k - i];
    }
  }

  lemma TrimBothEnds(s: string)
    ensures var r := TrimRight(TrimLeft(s));
      && |r| <= |s|
      && (r == "" <==> IsBlank(s))
      && (|r| > 0 ==> !IsSpace(r[0]) && !IsSpace(r[|r| - 1]))
      && (|s| > 0 && !IsSpace(s[0]) && !IsSpace(s[|s| - 1]) ==> r == s)
  {
    var left := TrimLeft(s);
    TrimLeftShape(s);
    TrimRightShape(left);
    var r := TrimRight(left);
    assert left != "" ==> left[0] == s[|s| - |left|];
    if |s| > 0 && !IsSpace(s[0]) && !IsSpace(s[|s| - 1]) {
      assert left == s;
    }
    assert |r| > 0 ==> r[0] == left[0];
  }

  /** Trimming is idempotent. */
  lemma TrimSpaceIdempotent(s: string)
    ensures TrimSpace(TrimSpace(s)) == TrimSpace(s)
  {
  }

  /* ---------------- ASCII case mapping ---------------- */

  function UpperChar(c: char): char {
    if 'a' <= c <= 'z' then (c as int - 32) as char else c
  }

  function LowerChar(c: char): char {
    if 'A' <= c <= 'Z' then (c as int + 32) as char else c
  }

  /** strings.ToUpper, restricted to ASCII letters. */
  function ToUpper(s: string): string {
    seq(|s|, k requires 0 <= k < |s| => UpperChar(s[k]))
  }

  /** strings.ToLower, restricted to ASCII letters. */
  function ToLower(s: string): string {
    seq(|s|, k requires 0 <= k < |s| => LowerChar(s[k]))
  }

  /** Two characters that are the same letter up to ASCII case. */
  predicate SameIgnoringCase(a: char, b: char) {
    || a == b
    || ('a' <= a <= 'z' && b as int == a as int - 32)
    || ('A' <= a <= 'Z' && b as int == a as int + 32)
  }

  /** Case-insensitive string equality over ASCII letters. */
  predicate EqualFold(s: string, w: string) {
    |s| == |w| && forall k :: 0 <= k < |s| ==> SameIgnoringCase(s[k], w[k])
  }

  predicate IsUpperWord(w: string) {
    forall k :: 0 <= k < |w| ==> 'A' <= w[k] <= 'Z'
  }

  predicate IsLowerWord(w: string) {
    forall k :: 0 <= k < |w| ==> 'a' <= w[k] <= 'z'
  }

  /** Comparing the upper-cased input with an upper-case keyword is a
      case-insensitive comparison. */
  lemma ToUpperMatches(s: string, w: string)
    requires IsUpperWord(w)
    ensures ToUpper(s) == w <==> EqualFold(s, w)
  {
    if EqualFold(s, w) {
      forall k | 0 <= k < |s| ensures ToUpper(s)[k] == w[k] {
      }
    }
  }

  /** Comparing the lower-cased input with a lower-case keyword is a
      case-insensitive comparison. */
  lemma ToLowerMatches(s: string, w: string)
    requires IsLowerWord(w)
    ensures ToLower(s) == w <==> EqualFold(s, w)
  {
    if EqualFold(s, w) {
      forall k | 0 <= k < |s| ensures ToLower(s)[k] == w[k] {
      }
    }
  }

  /** Upper-casing neither adds nor removes white space, so an already
      trimmed string stays trimmed. */
  lemma UpperOfTrimmed(s: string)
    ensures TrimSpace(ToUpper(TrimSpace(s))) == ToUpper(TrimSpace(s))
  {
    var t := TrimSpace(s);
    var u := ToUpper(t);
    if |u| > 0 {
      assert u[0] == UpperChar(t[0]);
      assert u[|u| - 1] == UpperChar(t[|t| - 1]);
    } else {
      assert t == [];
    }
  }

  /** Upper-casing twice changes nothing. */
  lemma UpperIdempotent(s: string)
    ensures ToUpper(ToUpper(s)) == ToUpper(s)
  {
  }

  /* ---------------- byte-wise ordering ---------------- */

  /** Go's `<` on strings: lexicographic order of the UTF-8 bytes, which is
      the lexicographic order of the code points. */
  predicate StrLess(a: string, b: string) {
    if |a| == 0 then |b| > 0
    else if |b| == 0 then false
    else if a[0] != b[0] then a[0] < b[0]
    else StrLess(a[1..], b[1..])
  }

  lemma {:induction false} StrLessIrreflexive(a: string)
    ensures !StrLess(a, a)
  {
    if |a| > 0 {
      StrLessIrreflexive(a[1..]);
    }
  }

  lemma {:induction false} StrLessTransitive(a: string, b: string, c: string)
    requires StrLess(a, b) && StrLess(b, c)
    ensures StrLess(a, c)
  {
    if |a| > 0 && |b| > 0 && |c| > 0 && a[0] == b[0] && b[0] == c[0] {
      StrLessTransitive(a[1..], b[1..], c[1..]);
    }
  }

  lemma {:induction false} StrLessTotal(a: string, b: string)
    ensures a == b || StrLess(a, b) || StrLess(b, a)
  {
    if |a| > 0 && |b| > 0 && a[0] == b[0] {
      StrLessTotal(a[1..], b[1..]);
      if a[1..] == b[1..] {
        assert a == [a[0]] + a[1..] && b == [b[0]] + b[1..];
      }
    }
  }

  lemma StrLessAsymmetric(a: string, b: string)
    requires StrLess(a, b)
    ensures !StrLess(b, a)
  {
    if StrLess(b, a) {
      StrLessTransitive(a, b, a);
      StrLessIrreflexive(a);
    }
  }
}

=== FILE: validation.dfy ===
/** The store's record validator: six rules, checked in order, first failure wins. */
module Validation {
  import opened Wrappers
  import opened Text
  import opened Numeric
  import opened Domain

  datatype ValidationError =
    | FieldCount(got: nat)   // "expected 6 fields, got %d"
    | Required(field: nat)   // "<field> is required", field index 0..5
    | InvalidType
    | InvalidStatus
    | InvalidTimestamp
    | InvalidAmount

  const RecordWidth := 6
  const FieldNames: seq<string> := ["timestamp", "name", "type", "amount", "status", "description"]

  /** Case-insensitively one of the two type names. */
  predicate NamesType(s: string) {
    EqualFold(s, Debit.Name()) || EqualFold(s, Credit.Name())
  }

  /** Case-insensitively one of the three status names. */
  predicate NamesStatus(s: string) {
    EqualFold(s, Success.Name()) || EqualFold(s, Failed.Name()) || EqualFold(s, Pending.Name())
  }

  /** A field that parses as an int64 of at least `lo` (ParseInt64 states which texts do). */
  predicate IntegerAtLeast(s: string, lo: int) {
    var p := ParseInt64(s);
    p.ok && lo <= p.value
  }

  /* The six rules of the validator, stated independently of how they are
     checked. Each later rule is only consulted once the earlier ones hold. */

  predicate SixFields(record: seq<string>) {
    |record| == RecordWidth
  }

  predicate NoneBlank(record: seq<string>) {
    forall k :: 0 <= k < |record| ==> !IsBlank(record[k])
  }

  predicate TypeNamed(record: seq<string>)
    requires SixFields(record)
  {
    NamesType(TrimSpace(record[2]))
  }

  predicate StatusNamed(record: seq<string>)
    requires SixFields(record)
  {
    NamesStatus(TrimSpace(record[4]))
  }

  predicate TimestampPositive(record: seq<string>)
    requires SixFields(record)
  {
    IntegerAtLeast(TrimSpace(record[0]), 1)
  }

  predicate AmountNonNegative(record: seq<string>)
    requires SixFields(record)
  {
    IntegerAtLeast(TrimSpace(record[3]), 0)
  }

  /** Rules 2 to 5. */
  predicate ValuesOk(record: seq<string>)
    requires SixFields(record)
  {
    TypeNamed(record) && StatusNamed(record) && TimestampPositive(record) && AmountNonNegative(record)
  }

  predicate WellFormed(record: seq<string>) {
    SixFields(record) && NoneBlank(record) && ValuesOk(record)
  }

  /** On a record of the expected width, rule 1 reads field by field. */
  lemma NoneBlankOfSix(record: seq<string>)
    requires SixFields(record)
    ensures NoneBlank(record) <==>
      && !IsBlank(record[0]) && !IsBlank(record[1]) && !IsBlank(record[2])
      && !IsBlank(record[3]) && !IsBlank(record[4]) && !IsBlank(record[5])
  {
    if !IsBlank(record[0]) && !IsBlank(record[1]) && !IsBlank(record[2])
      && !IsBlank(record[3]) && !IsBlank(record[4]) && !IsBlank(record[5])
    {
      forall k | 0 <= k < |record|
        ensures !IsBlank(record[k])
      {
        if k == 0 {} else if k == 1 {} else if k == 2 {} else if k == 3 {} else if k == 4 {} else {}
      }
    }
  }

  /** Error e reports the first rule the record breaks. */
  predicate FirstBroken(record: seq<string>, e: ValidationError) {
    match e
    case FieldCount(got) => got == |record| && !SixFields(record)
    case Required(field) =>
      && SixFields(record) && field < RecordWidth && IsBlank(record[field])
      && forall k :: 0 <= k < field ==> !IsBlank(record[k])
    case _ => SixFields(record) && NoneBlank(record) && FirstBrokenValue(record, e)
  }

  /** Error e reports the first of rules 2 to 5 that the record breaks. */
  predicate FirstBrokenValue(record: seq<string>, e: ValidationError)
    requires SixFields(record)
  {
    match e
    case InvalidType => !TypeNamed(record)
    case InvalidStatus => TypeNamed(record) && !StatusNamed(record)
    case InvalidTimestamp => TypeNamed(record) && StatusNamed(record) && !TimestampPositive(record)
    case InvalidAmount =>
      && TypeNamed(record) && StatusNamed(record) && TimestampPositive(record)
      && !AmountNonNegative(record)
    case _ => false
  }

  /** The first field at or after `from` that is blank once trimmed. */
  function FirstBlank(record: seq<string>, from: nat): (r: Option<nat>)
    requires from <= |record|
    decreases |record| - from
    ensures r.Some? ==> from <= r.value < |record| && IsBlank(record[r.value])
    ensures r.Some? ==> forall k :: from <= k < r.value ==> !IsBlank(record[k])
    ensures r.None? <==> forall k :: from <= k < |record| ==> !IsBlank(record[k])
  {
    if from == |record| then None
    else if TrimSpace(record[from]) == "" then Some(from)
    else FirstBlank(record, from + 1)
  }

  /** The upper-cased trimmed text names a type exactly when the text does so in any case. */
  lemma TypeCheckIsCaseInsensitive(s: string)
    ensures ParseType(ToUpper(s)).Some? <==> NamesType(s)
  {
    ToUpperMatches(s, Debit.Name());
    ToUpperMatches(s, Credit.Name());
  }

  lemma StatusCheckIsCaseInsensitive(s: string)
    ensures ParseStatus(ToUpper(s)).Some? <==> NamesStatus(s)
  {
    ToUpperMatches(s, Success.Name());
    ToUpperMatches(s, Failed.Name());
    ToUpperMatches(s, Pending.Name());
  }

  function ValidateRecord(record: seq<string>): (r: Outcome<ValidationError>)
    ensures r.Pass? <==> WellFormed(record)
    ensures r.Fail? ==> FirstBroken(record, r.error)
  {
    if |record| != RecordWidth then Fail(FieldCount(|record|))
    else match FirstBlank(record, 0)
      case Some(i) => Fail(Required(i))
      case None => CheckValues(record)
  }

  /* Rules 2 to 5 as the validator checks them: trimmed, upper-cased and parsed. */

  lemma TypeRuleAsChecked(record: seq<string>)
    requires SixFields(record)
    ensures TypeNamed(record) <==> ParseType(ToUpper(TrimSpace(record[2]))).Some?
  {
    TypeCheckIsCaseInsensitive(TrimSpace(record[2]));
  }

  lemma StatusRuleAsChecked(record: seq<string>)
    requires SixFields(record)
    ensures StatusNamed(record) <==> ParseStatus(ToUpper(TrimSpace(record[4]))).Some?
  {
    StatusCheckIsCaseInsensitive(TrimSpace(record[4]));
  }

  /** Rules 2 to 5, in order, for a record of six non-blank fields. */
  function CheckValues(record: seq<string>): (r: Outcome<ValidationError>)
    requires SixFields(record)
    ensures r.Pass? <==> ValuesOk(record)
    ensures r.Fail? ==> FirstBrokenValue(record, r.error)
  {
    TypeRuleAsChecked(record);
    if ParseType(ToUpper(TrimSpace(record[2]))).None? then Fail(InvalidType)
    else CheckStatus(record)
  }

  /** Rules 3 to 5, once the type is known to be good. */
  function CheckStatus(record: seq<string>): (r: Outcome<ValidationError>)
    requires SixFields(record) && TypeNamed(record)
    ensures r.Pass? <==> ValuesOk(record)
    ensures r.Fail? ==> FirstBrokenValue(record, r.error)
  {
    StatusRuleAsChecked(record);
    if ParseStatus(ToUpper(TrimSpace(record[4]))).None? then Fail(InvalidStatus)
    else CheckNumbers(record)
  }

  /** Rules 4 and 5, once type and status are known to be good. */
  function CheckNumbers(record: seq<string>): (r: Outcome<ValidationError>)
    requires SixFields(record) && TypeNamed(record) && StatusNamed(record)
    ensures r.Pass? <==> ValuesOk(record)
    ensures r.Fail? ==> FirstBrokenValue(record, r.error)
  {
    var timestamp := ParseInt64(TrimSpace(record[0]));
    var amount := ParseInt64(TrimSpace(record[3]));
    if !timestamp.ok || timestamp.value <= 0 then Fail(InvalidTimestamp)
    else if !amount.ok || amount.value < 0 then Fail(InvalidAmount)
    else Pass
  }
}

=== FILE: wrappers.dfy ===
/** Failure-carrying result types shared by every module of the model. */
module Wrappers {

  datatype Option<+T> = None | Some(value: T)

  /** The value of a Go call that returns `(T, error)`. */
  datatype Result<+R, +E> = Ok(value: R) | Err(error: E)

  /** The value of a Go call that returns only `error` (nil is Pass). */
  datatype Outcome<+E> = Pass | Fail(error: E)
}
